=== FILE: README.md ===
# A verified model of the `validate` rule engine

This project models the core of a small TypeScript validation library in Dafny.

- **Builders.** A *builder* (`init()`) holds two things for each node of a data shape. The first is its *own rules*, an ordered map from rule name to rule. The second is its *children*, an ordered map from field name to a nested validator.
- **Extending a builder.** `fullObjectRules` and `rules` extend a builder immutably. In both, the last write wins.
- **`validate`.**
  - It runs the own rules with a first-failure scan (`validateRules`).
  - It then runs every child on `data[field]`.
  - It returns `null` when nothing failed. Otherwise it returns the own-error list with each failing child's result attached under that child's field name.
- **Rule outcomes.** A rule passes only when it returns `false`, `null` or `undefined`. `true` yields the record `{type}`. Any other value, including `0` and `""`, yields `{type, error: value}`.
- **`allOf`.** `allOf` groups rules into one scan position that reports every failing member.
- **Collections.** `list` validates each element of an array, keeping positional placeholders. `map` validates each value of an object and keeps only the failing keys.
- **`Result` view.** The `Result` class of `src/result.ts` turns an ordered rule-name→payload map into the same `{type, error?}` record list.

Modules (one file each):

- `Options`: `Option<T>` (`options.dfy`).
- `OrderedMaps`: JavaScript objects as `seq<(string, V)>`, with object spread `{...a, ...b}` as `Merge`. Spread replaces a key that is already present where it stands and appends a new key at the end (`ordered_maps.dfy`).
- `Values`: JavaScript values, truthiness, the rule pass test and property reads (`values.dfy`).
- `Records`: the `{type, error?}` record and `getError` (`records.dfy`).
- `RuleScan`: `validateRules` and `allOf` (`rule_scan.dfy`).
- `Engine`: the builder, `validate`, `list`, `map`, `init`, `fullObjectRules` and `rules` (`engine.dfy`).
- `EngineProperties`: what `validate`, `list`, `map` and the builder operations promise (`engine_properties.dfy`).
- `ResultView`: the `Result` constructor, its `errors` getter and `getErrors` (`result_view.dfy`).
- `DualView`: the rule scan's error list is exactly the `Result` view of the failures it stands for (`dual_view.dfy`).
- `Scenarios`: the documented examples, proved about the model (`scenarios.dfy`).

Some of the repository's tests exercise a newer API than `src/index.ts` implements. Where they disagree with that file, the model follows `src/index.ts`:

- In `src/tests/extend.spec.ts:57-98`, results are keyed by rule name (`{ required: true }`), and `rules(...)` accepts plain rules and a producer function. In `src/tests/meta.spec.ts`, rules receive a meta argument. In `src/index.ts`, own errors are an array of `{type, error?}` records, every entry given to `rules(...)` becomes a child, and rules take the data alone.
- `src/tests/extend.spec.ts:87` validates `null` against a scheme with a child and expects only the own rule's failure. In `src/index.ts:133`, `validate` reads `data[key]` without a guard, which throws on `null` or `undefined`. The model therefore requires, through `Engine.Fits`, that a node with children receives data it can index.

Rules, and custom validators (any object with a `validate` method), are caller-supplied functions. They are modelled as total functions `Value -> Value`, and they are parameters of the model.

## Model

| member | source | states |
|---|---|---|
| Records.RecordOf | src/index.ts:184-191 | the record keeps the rule name; it has no `error` field exactly when the rule returned `true`; otherwise the payload is kept as it is, falsy payloads included |
| Records.RecordRoundTrip | src/result.ts:21-28 | every well-formed record is the `getError` record of its own name and payload, so records and (name, payload) pairs correspond one-to-one |
| Values.PassesVersusFalsy | src/index.ts:171-173 | the rule pass test is stricter than JavaScript falsiness: every passing result is falsy, and the only falsy results that still fail are `0` and `""` |
| Values.Get | src/index.ts:133 | `data[key]`, also at line 236; what it reads is stated by `Values.GetOwn`, `Values.GetField`, `Values.GetIndex` and `Values.GetNonIndex` |
| Values.GetOwn | src/index.ts:133 | reading `data[key]` gives the value `Object.keys` pairs with an own key, and `undefined` for any other key |
| Values.GetIndex | src/index.ts:133 | reading index `i` of an array gives its `i`-th element, and of a string its `i`-th character as a string |
| Values.GetNonIndex | src/index.ts:133 | on every array or string, empty ones included, a key that is not an index below the length reads `undefined` |
| Values.GetField | src/index.ts:133 | reading a field of an object with distinct field names gives that field's value |
| Values.IndexKeyBelow | src/index.ts:235 | a key names one of the first `n` indices; stated by `Values.ArrayEntries` |
| Values.ArrayEntries | src/index.ts:235-236 | `Object.keys` of an array lists each index once, in order, with the element there, and no other key |
| Values.Truthy | src/index.ts:134 | JavaScript truthiness of `if (res)`; its relation to the pass test is stated by `Values.PassesVersusFalsy` |
| Values.Passes | src/index.ts:156 | the pass test: `res === false` or `res == null`; stated against truthiness by `Values.PassesVersusFalsy` |
| Values.IndexKey | src/index.ts:235 | an array index's key as `Object.keys` spells it: at least one digit, two or more from 10 on, ending in the last decimal digit |
| Values.IndexKeyInjective | src/index.ts:235 | distinct indices have distinct keys |
| Values.OwnEntries | src/index.ts:235-236 | `Object.keys(data)` with `data[name]`: an object's fields unchanged, one entry per array element or string character, and none for other primitives |
| Values.OwnEntriesAt | src/index.ts:235-236 | the `i`-th key of an array or string is the index `i`, holding the element or character there |
| Values.OwnEntriesDistinct | src/index.ts:235 | the keys `Object.keys` lists are distinct |
| RuleScan.GroupErrors | src/index.ts:151-162 | a group reports at most one record per member, all well-formed, and reports nothing exactly when every member passes |
| RuleScan.GroupErrorsMembers | src/index.ts:153-162 | a record is in a group's report exactly when some member fails and the record is that member's `getError` record |
| RuleScan.GroupErrorsAppend | src/index.ts:153-162 | members are evaluated independently and reported in member order: the report for `a + b` is the report for `a` followed by that for `b` |
| RuleScan.ValidateRules | src/index.ts:143-182 | the scan yields `null` or a non-empty list of well-formed records |
| RuleScan.ScanPassesIff | src/index.ts:149-181 | the scan yields `null` exactly when every scan position passes |
| RuleScan.ScanStopsAtFirstFailure | src/index.ts:171-178 | when positions before `i` pass and position `i` fails, the result is exactly position `i`'s records, whatever the later rules are |
| RuleScan.ScanIgnoresLaterRules | src/index.ts:149-179 | once a prefix of the rules fails, appending more rules changes nothing, because later rules are never consulted |
| RuleScan.ScanSkipsPassingPrefix | src/index.ts:164-173 | a prefix of passing rules, including groups with no failing member, does not affect the result |
| RuleScan.AllOf | src/index.ts:197-209 | `allOf(r)` has exactly the keys of `r` in order; the first holds the group of all of `r` and every other key holds a placeholder that always passes |
| RuleScan.AllOfIsOneScanPosition | src/index.ts:150-170 | after a passing prefix, an `allOf` block reports all its failing members at once and stops the scan, or continues with the rules after it when no member fails |
| Engine.Validate | src/index.ts:121-140 | a builder yields `null` or an own-error node, `list` (lines 213-227) yields `null` or an array as long as the data, `map` (lines 231-250) yields `null` or a non-empty object, and only a custom validator yields an arbitrary value |
| Engine.ValidateScheme | src/index.ts:121-140 | a builder's result is `null` or an own-error node with children attached |
| Engine.ChildResults | src/index.ts:132-133 | exactly one result per child from position `i` on; which result each child gets is stated by `EngineProperties.ChildResultsAt` |
| Engine.ListResults | src/index.ts:217-223 | `data.map` gives exactly one result per element; which result is stated by `EngineProperties.ListResultsAt` |
| Engine.MapResults | src/index.ts:235-236 | exactly one result per key of the data object; which result is stated by `EngineProperties.MapResultsAt` |
| Engine.KeepFailed | src/index.ts:238-245 | filtering keeps only truthy results, never more entries than given, and keeps nothing exactly when no result is truthy |
| Engine.Convert | src/index.ts:104-113 | the converted map has the same keys in the same order, and each entry is the given validator or the promoted rule map |
| EngineProperties.ChildResultsAt | src/index.ts:132-133 | the child at position `j` is validated on `data[field]`, and that data is shaped the way the child needs |
| EngineProperties.ListResultsAt | src/index.ts:217-218 | the `i`-th list result is the item validator's result for the `i`-th element |
| EngineProperties.MapResultsAt | src/index.ts:235-236 | the `i`-th map result pairs the `i`-th key with the item validator's result for its value |
| EngineProperties.KeepFailedLookup | src/index.ts:238-245 | after filtering, a key maps to its result exactly when that result is truthy, and is absent otherwise |
| EngineProperties.SchemeNullIff | src/index.ts:124-139 | `validate` returns `null` exactly when the own rules pass and every child's result is falsy |
| EngineProperties.SchemeReport | src/index.ts:130-139 | a non-`null` result carries the own-rule errors, or none when they passed; its attached fields are distinct; each child's field holds that child's result exactly when it is truthy; and no field outside the children appears |
| EngineProperties.OwnRulesOnly | src/index.ts:121-140 | a builder with no children reports its own rules alone: `null` when they pass, else their errors with nothing attached |
| EngineProperties.InitAcceptsEverything | src/index.ts:79-81 | a fresh builder accepts every value |
| EngineProperties.FullObjectRulesMerges | src/index.ts:90-95 | `fullObjectRules(r)` makes each rule of `r` win over an old one of the same name, keeps other old rules, keeps old names in place with new names after them, and leaves the children unchanged |
| EngineProperties.ConvertLookup | src/index.ts:104-113 | a field in the converted map holds the promoted form of what was given for it, and a field not given is absent |
| EngineProperties.RulesMerges | src/index.ts:97-119 | `rules(c)` makes each field of `c` hold its converted entry, keeps every other child, places new fields last, and leaves the own rules unchanged |
| EngineProperties.PromotedRuleSet | src/index.ts:110 | a plain rule map given to `rules(...)` validates its field exactly as the first-failure scan does: `null` when it passes, else the own-error list with nothing attached |
| EngineProperties.ListPositional | src/index.ts:213-227 | `list(s)` yields `null` exactly when every element's result is falsy; otherwise it yields one entry per element, in order, each being that element's own result |
| EngineProperties.MapFailingKeys | src/index.ts:231-250 | `map(s)` yields `null` exactly when the result for every key of `Object.keys(data)` is falsy; otherwise it holds exactly the failing keys, each once and with its result |
| EngineProperties.MapOverArray | src/index.ts:231-250 | `map(s)` over an array is `null` exactly when every element's result is falsy; otherwise its keys are distinct index keys of the array, each failing element's result is under its index key, and no passing index appears |
| EngineProperties.KeepFailedDistinct | src/index.ts:238-245 | filtering a map with distinct keys leaves the keys distinct |
| EngineProperties.KeepFailedSummary | src/index.ts:238-245 | after filtering a map with distinct keys, the kept keys are distinct input keys, and each input key is kept with its result exactly when that result is truthy |
| EngineProperties.MapNullIff | src/index.ts:235-247 | `map(s)` yields `null` exactly when the result for every key of the data is falsy |
| EngineProperties.MapEntriesDistinct | src/index.ts:235-245 | a non-`null` `map(s)` result has distinct keys |
| EngineProperties.MapKeysFromData | src/index.ts:235-245 | every key of a non-`null` `map(s)` result is a key of the data |
| EngineProperties.MapLookupFailing | src/index.ts:235-245 | in a non-`null` `map(s)` result, each key of the data holds its result exactly when that result is truthy |
| EngineProperties.MapOverKeyless | src/index.ts:235-247 | `map(s)` over a number, a boolean or the empty string sees no keys and returns `null` |
| Engine.Init | src/index.ts:79-81 | `init()`; what it validates is stated by `EngineProperties.InitAcceptsEverything` |
| Engine.FullObjectRules | src/index.ts:90-95 | `fullObjectRules(r)`; stated by `EngineProperties.FullObjectRulesMerges` |
| Engine.Promote | src/index.ts:108-110 | the conversion of one `rules(...)` entry; stated by `EngineProperties.PromotedRuleSet` and `Engine.Convert` |
| Engine.Rules | src/index.ts:97-119 | `rules(c)`; stated by `EngineProperties.RulesMerges` |
| Engine.Failed | src/index.ts:134 | `if (res)` on a child's result, also at lines 219 and 238; what it selects is stated by `Engine.KeepFailed`, `EngineProperties.SchemeNullIff` and `EngineProperties.ListPositional` |
| OrderedMaps.Merge | src/index.ts:92 | object spread `{...a, ...b}`, also at line 117; stated by `OrderedMaps.MergeLookup` and `OrderedMaps.MergeKeys` |
| OrderedMaps.Lookup | src/index.ts:133 | a property read finds a value exactly when the key is present |
| OrderedMaps.Put | src/index.ts:204 | assigning a key keeps the size when the key exists and adds one entry otherwise |
| OrderedMaps.PutLookup | src/index.ts:204 | after assigning `k`, reading `k` gives the new value and every other key reads as before |
| OrderedMaps.PutKeys | src/index.ts:204 | assigning an existing key keeps the key order, and a new key goes last |
| OrderedMaps.MergeLookup | src/index.ts:92 | in `{...a, ...b}`, a key of `b` reads from `b` and any other key reads from `a` |
| OrderedMaps.MergeKeys | src/index.ts:92 | the keys of `{...a, ...b}` are those of `a` in order, followed by the keys of `b` not in `a`, in `b`'s order |
| OrderedMaps.MergeDistinct | src/index.ts:117 | spreading into a map with distinct keys keeps the keys distinct |
| OrderedMaps.MergeFresh | src/index.ts:117 | spreading in only new keys appends them in order |
| ResultView.Construct | src/result.ts:4-5 | the `Result` carries every input field unchanged; the only input it rejects is one with a field named `errors`, which would collide with the read-only getter |
| ResultView.RecordsOf | src/result.ts:12 | one record per key, in key order: its `type` is the key, its payload is the key's value, and it lacks `error` exactly when the value is `true` |
| ResultView.ErrorsOf | src/result.ts:7-18 | `errors` is `null` exactly when the map has no keys; otherwise it has one record per key, in key order, the `i`-th naming the `i`-th key and carrying its value, `{type}` alone exactly for `true` |
| ResultView.FieldsOfRecordsOf | src/result.ts:12 | reading the records back as (type, payload) pairs gives the input map exactly, so no payload, falsy or not, is lost |
| ResultView.RecordsOfFieldsOf | src/result.ts:21-28 | well-formed records are recovered from their (type, payload) pairs, so the record list determines the map and the map determines the list |
| ResultView.GetErrors | src/result.ts:30-32 | `getErrors` yields nothing exactly for objects not built by `Result`, and a built object's `errors` view otherwise |
| ResultView.GetErrorsAgrees | src/result.ts:16-18 | for every map `Result` accepts, `getErrors` of the built object equals its `errors` getter |
| DualView.OwnErrorsAreResultView | src/result.ts:4-13 | `new Result` of the failed rules' payloads under their names throws exactly when a failed rule is named `errors`; otherwise its `errors` view is exactly the list the rule scan reports |
| DualView.RuleNamedErrors | src/result.ts:4-5 | a failing rule named `errors` is reported by the scan, yet `new Result` of its payload throws |
| Scenarios.StringSchemeOnStrings | src/tests/index.spec.ts:6-17 | the `required` and `minLenght` scheme reports `required` for the empty string, `minLenght` for a string of at most 8 characters, and `null` otherwise |
| Scenarios.FirstFailureScenario | src/tests/index.spec.ts:12-14 | the three documented results of the simple-value example |
| Scenarios.GroupSchemeOnStrings | src/tests/index.spec.ts:163-170 | with `required` followed by `allOf` of `minLenght` and `contains4`: the empty string gets `required` alone, any other string gets every failing group member together, and `null` when none fails |
| Scenarios.LengthGroupOnStrings | src/tests/index.spec.ts:166-169 | the group reports its failing members in member order |
| Scenarios.AllOfScenario | src/tests/index.spec.ts:172-178 | the four documented results of the all-rules-of-list example |
| Scenarios.FalsyPayloadScenario | src/tests/index.spec.ts:244-281 | `0` and `""` fail with their payload kept; `false`, `null` and `undefined` pass |
| Scenarios.OneChild | src/index.ts:132-139 | a node whose only child is `field` fails exactly when that child's result is truthy, and then reports that result under `field` with no own errors |
| Scenarios.ListOfStrings | src/tests/index.spec.ts:195-203 | the documented list result: positional entries with a `null` placeholder for the passing element |
| Scenarios.ListScenario | src/tests/index.spec.ts:191-203 | the failing half of the list-of-values example, with the list result under `value` |
| Scenarios.ListScenarioAllPass | src/tests/index.spec.ts:205-208 | the passing half of the list-of-values example: all-long strings give `null` |
| Scenarios.MapOfStrings | src/tests/index.spec.ts:225-232 | the documented map result: only the failing keys `v1` and `v2` |
| Scenarios.MapScenario | src/tests/index.spec.ts:221-232 | the failing half of the map-of-values example, with the map result under `value` |
| Scenarios.MapScenarioAllPass | src/tests/index.spec.ts:234-239 | the passing half of the map-of-values example: all-long values give `null` |
| Scenarios.StringSchemeRules | src/tests/index.spec.ts:216-219 | `fullObjectRules` on a fresh builder gives the string scheme: `required` then `minLenght`, and no children |
| Scenarios.SingleRuleScheme | src/index.ts:121-140 | a scheme of one rule and no children yields `null` when the rule's result passes, else a node holding exactly that rule's `getError` record |
| Scenarios.MapOfThree | src/index.ts:231-250 | `map(s)` over a three-field object yields the failing fields among the three, in field order, each with its result, or `null` when none fails |
| Scenarios.MapOfThreeStrings | src/tests/index.spec.ts:222-239 | `map(stringScheme)` over any three string fields keeps exactly the fields whose string fails the scheme, each with the string scheme's report for it |
| Scenarios.MapOfLongStrings | src/tests/index.spec.ts:234-239 | the documented map of three long strings gives `null` |
| Scenarios.SingleRuleScan | src/index.ts:171-178 | a lone rule yields `null` when its result passes, else exactly its one `getError` record |
| Scenarios.SingleGroupScan | src/index.ts:150-170 | `allOf` of one rule reports the same as that rule alone |
| Scenarios.FieldRuleSet | src/index.ts:108-110 | a plain rule map given for a field runs on that field's value, and its errors, if any, are the only thing reported, under the field's name |
| Scenarios.FieldPayloadScenario | src/tests/index.spec.ts:283-313 | a single-rule map given for field `f`: a rule returning `0` or `""` is reported under `f` with its payload kept; one returning `null` or `undefined` leaves the result `null` |
| Scenarios.GroupPayloadScenario | src/tests/index.spec.ts:315-345 | the same with the rule wrapped in `allOf`: `0` and `""` are reported under `f` with their payloads, `null` and `undefined` pass |

## Left out

- The TypeScript type-level inference types (`RuleError`, `RulesErrors`, `ChildResult` and the others at the top of `src/index.ts`) only compute static types. They have no run-time behaviour.
- Meta/context threading, `getRules`, producer-form `rules(fn)` and `passMeta` are exercised only by tests of a newer API. They are not part of `src/index.ts`, so they are not part of this model.
- Duck typing is replaced by datatype variants:
  - The probe for a `validate` method (`src/index.ts:108`) becomes `ChildSpec.Nested` versus `ChildSpec.RuleSet`.
  - The `isAllOfFlag` identity test (`src/index.ts:150`) becomes `RuleEntry.GroupHead`.
  - One consequence is not modelled: in the code, a rule map that happens to contain a function named `validate` would be taken as a validator.
- An `allOf` member is a plain rule. In the code, a flagged thunk nested inside another `allOf` would be called as an ordinary rule, and its returned object would count as a failure payload. That case is not modelled.
- The `WeakMap` private store of `src/result.ts:1` becomes a derived function (`ResultView.ErrorsOf`) together with the `Instance`/`Foreign` distinction of `ResultView.GetErrors`.
- JavaScript's own-key ordering, which lists integer-like keys first in ascending order, is not modelled. Ordered maps keep insertion order for every key.
- `__proto__` and other keys with special meaning in object literals are not modelled.
- The result of a builder is modelled as a record (`Engine.Report.Node`) of the own-error list and the attached children. The code returns an array with extra named properties. There, a child whose field name is an array index (`"0"`) overwrites an own error. A child named `"length"` makes `errors.length = res` throw a `RangeError` when the result does not convert to a valid array length, as with an array of one record; when it does, as with `[]`, a number or `true`, the assignment sets the array's length. The model keeps own errors and children apart.
- Numbers are unbounded integers, so `NaN`, `-0` and fractions are not modelled. Only `0` among numbers is falsy.
- `Values.Get` reads only own enumerable keys: object fields, array indices and string indices. Other properties, such as `length` and prototype properties, read as `undefined`. Rules still see the whole value, so this affects only field dispatch.
- A string's keys and characters are counted in Dafny `char`s, not UTF-16 code units. The two agree on the basic multilingual plane.
- Rules or custom validators that throw or have side effects are not modelled. Rules are pure total functions, which also makes re-validating the same data give the same result.
- Data that would make the code throw is excluded by the precondition `Engine.Fits`:
  - a node with children given `null` or `undefined` data;
  - `list` given something other than an array, because it calls `data.map`;
  - `map` given `null` or `undefined`, where `Object.keys` throws.
- OrderedMaps.MergeLookup: stated only for maps with distinct keys, which every JavaScript object has.
- OrderedMaps.MergeKeys: stated only for maps with distinct keys, which every JavaScript object has.
- EngineProperties.FullObjectRulesMerges: stated only for maps with distinct keys, which every JavaScript object has.
- EngineProperties.RulesMerges: stated only for maps with distinct keys, which every JavaScript object has.
- EngineProperties.SchemeReport: stated only for maps with distinct keys, which every JavaScript object has.
- EngineProperties.MapFailingKeys: stated only for maps with distinct keys, which every JavaScript object has.
- EngineProperties.MapEntriesDistinct: stated only for maps with distinct keys, which every JavaScript object has.
- EngineProperties.MapKeysFromData: stated only for maps with distinct keys, which every JavaScript object has.
- EngineProperties.MapLookupFailing: stated only for maps with distinct keys, which every JavaScript object has.
- EngineProperties.KeepFailedSummary: stated only for maps with distinct keys, which every JavaScript object has.
- EngineProperties.KeepFailedDistinct: stated only for maps with distinct keys, which every JavaScript object has.
- Values.GetField: stated only for objects with distinct field names, which every JavaScript object has.
- EngineProperties.KeepFailedLookup: stated only for maps with distinct keys, which every JavaScript object has.
- EngineProperties.PromotedRuleSet: stated only for maps with distinct keys, which every JavaScript object has.
- The unit-test framework and the compile-time type tests are not modelled.

=== FILE: dual_view.dfy ===
/** The engine's own-error list and the `Result` error view agree: the
    records the rule scan reports are exactly the `errors` view of the keyed
    failures (rule name to payload) they stand for. */
module DualView {
  import opened Options
  import opened Values
  import opened Records
  import opened RuleScan
  import opened ResultView
  import OrderedMaps

  /** When the own rules fail, `new Result` of the failed rules' payloads
      under their names throws exactly when one of those rules is named
      `errors`; otherwise its `errors` view is the reported list. */
  lemma OwnErrorsAreResultView(d: Value, rules: seq<(string, RuleEntry)>)
    requires ValidateRules(d, rules).Some?
    ensures var es := ValidateRules(d, rules).value;
      var built := Construct(FieldsOf(es));
      && (built.None? <==> exists i :: 0 <= i < |es| && es[i].ruleType == "errors")
      && (built.Some? ==> ErrorsOf(built.value) == Some(es))
  {
    var es := ValidateRules(d, rules).value;
    var fields := FieldsOf(es);
    assert forall i :: 0 <= i < |es| ==> OrderedMaps.Keys(fields)[i] == es[i].ruleType;
    RecordsOfFieldsOf(es);
  }

  /** A failing rule named `errors` is reported like any other, yet its
      payload cannot be put into a `Result`. */
  lemma RuleNamedErrors(d: Value)
    ensures ValidateRules(d, [("errors", Single(_ => Bool(true)))]) == Some([ErrorRecord("errors", None)])
    ensures Construct(FieldsOf([ErrorRecord("errors", None)])) == None
  {
    assert [("errors", Single(_ => Bool(true)))][1..] == [];
    assert OrderedMaps.Keys(FieldsOf([ErrorRecord("errors", None)]))[0] == "errors";
  }
}

=== FILE: engine.dfy ===
/** The immutable `Builder`, the child validators it composes, and the
    recursive `validate` walk (`init`, `fullObjectRules`, `rules`,
    `validate`, `list`, `map`). Which kind of child a field holds is decided
    by a variant rather than by probing for a `validate` method. */
module Engine {
  import opened Options
  import opened Values
  import opened Records
  import opened RuleScan
  import OrderedMaps

  /** Anything with a `validate` method that can sit under a field name. */
  datatype Validator =
    | Scheme(builder: Builder)
    | ListOf(item: Validator)         // list(item)
    | MapOf(item: Validator)          // map(item)
    | Custom(check: Value -> Value)   // a caller's own `{validate}` object

  /** A builder: the node's own rules and its child validators by field. */
  datatype Builder = Builder(ownRules: seq<(string, RuleEntry)>, children: seq<(string, Validator)>)

  /** An entry handed to `rules(...)`: a validator, kept as it is, or a
      plain rule map, promoted to a builder of its own. */
  datatype ChildSpec =
    | Nested(validator: Validator)
    | RuleSet(rules: seq<(string, RuleEntry)>)

  /** What `validate` returns. `Nothing` is `null`. `Node` is the own-error
      array of a builder with each failing child's result attached under the
      field name; `Items` is the array `list` returns, `Keyed` the object
      `map` returns, and `Opaque` whatever a custom validator returned. */
  datatype Report =
    | Nothing
    | Node(own: seq<ErrorRecord>, fields: seq<(string, Report)>)
    | Items(items: seq<Report>)
    | Keyed(entries: seq<(string, Report)>)
    | Opaque(value: Value)

  /** `if (res)`: how a parent reads a child's result. */
  predicate Failed(r: Report) {
    match r
    case Nothing => false
    case Opaque(v) => Truthy(v)
    case _ => true
  }

  /** The data has the shape the validator reads without throwing: a node
      with children reads `data[key]`, so its data is not null or
      undefined; `list` calls `data.map`, so its data is an array; `map`
      calls `Object.keys(data)`, which throws only on null or undefined. */
  predicate Fits(v: Validator, d: Value)
    decreases v
  {
    match v
    case Custom(_) => true
    case ListOf(item) =>
      d.Arr? && forall i :: 0 <= i < |d.items| ==> Fits(item, d.items[i])
    case MapOf(item) =>
      !Nullish(d) && forall i :: 0 <= i < |OwnEntries(d)| ==> Fits(item, OwnEntries(d)[i].1)
    case Scheme(b) => SchemeFits(b, d)
  }

  predicate SchemeFits(b: Builder, d: Value)
    decreases b
  {
    && (b.children != [] ==> !Nullish(d))
    && forall i :: 0 <= i < |b.children| ==>
         assert b.children[i] in b.children; Fits(b.children[i].1, Get(d, b.children[i].0))
  }

  /** `validator.validate(data)`. */
  function Validate(v: Validator, d: Value): (r: Report)
    requires Fits(v, d)
    ensures v.Custom? <==> r.Opaque?
    ensures v.Scheme? ==> r.Nothing? || r.Node?
    ensures v.ListOf? ==> r.Nothing? || (r.Items? && |r.items| == |d.items|)
    ensures v.MapOf? ==> r.Nothing? || (r.Keyed? && r.entries != [])
    decreases v, 0
  {
    match v
    case Custom(check) => Opaque(check(d))
    case Scheme(b) => ValidateScheme(b, d)
    case ListOf(item) =>
      var results := ListResults(item, d.items);
      if exists i :: 0 <= i < |results| && Failed(results[i]) then Items(results) else Nothing
    case MapOf(item) =>
      var failing := KeepFailed(MapResults(item, OwnEntries(d)));
      if failing != [] then Keyed(failing) else Nothing
  }

  /** `Builder.validate(data)`: the own-rule errors (or an empty array when
      the own rules pass) with every failing child's result attached; `null`
      when neither failed. */
  function ValidateScheme(b: Builder, d: Value): (r: Report)
    requires SchemeFits(b, d)
    ensures r.Nothing? || r.Node?
    decreases b, 3
  {
    var own := ValidateRules(d, b.ownRules);
    var failing := KeepFailed(ChildResults(b, d, 0));
    if own.Some? || failing != [] then Node(own.GetOr([]), failing) else Nothing
  }

  /** Each child's result on `data[key]`, from child `i` on, in key order. */
  function ChildResults(b: Builder, d: Value, i: nat): (rs: seq<(string, Report)>)
    requires i <= |b.children|
    requires SchemeFits(b, d)
    ensures |rs| == |b.children| - i
    decreases b, 2, |b.children| - i
  {
    if i == |b.children| then []
    else
      assert b.children[i] in b.children;
      var key := b.children[i].0;
      [(key, Validate(b.children[i].1, Get(d, key)))] + ChildResults(b, d, i + 1)
  }

  /** `data.map(d => item.validate(d))`. */
  function ListResults(item: Validator, xs: seq<Value>): (rs: seq<Report>)
    requires forall i :: 0 <= i < |xs| ==> Fits(item, xs[i])
    ensures |rs| == |xs|
    decreases item, 1, |xs|
  {
    if xs == [] then [] else [Validate(item, xs[0])] + ListResults(item, xs[1..])
  }

  /** `item.validate(data[name])` for every name in `Object.keys(data)`. */
  function MapResults(item: Validator, fields: seq<(string, Value)>): (rs: seq<(string, Report)>)
    requires forall i :: 0 <= i < |fields| ==> Fits(item, fields[i].1)
    ensures |rs| == |fields|
    decreases item, 1, |fields|
  {
    if fields == [] then []
    else [(fields[0].0, Validate(item, fields[0].1))] + MapResults(item, fields[1..])
  }

  /** The entries whose result is truthy, in order: what `errors[key] = res`
      and `{...prev, [name]: res}` collect. */
  function KeepFailed(rs: seq<(string, Report)>): (kept: seq<(string, Report)>)
    ensures |kept| <= |rs|
    ensures kept == [] <==> forall i :: 0 <= i < |rs| ==> !Failed(rs[i].1)
    ensures forall i :: 0 <= i < |kept| ==> Failed(kept[i].1)
  {
    if rs == [] then []
    else (if Failed(rs[0].1) then [rs[0]] else []) + KeepFailed(rs[1..])
  }

  /** `init()`: no own rules, no children. */
  function Init(): Builder {
    Builder([], [])
  }

  /** `builder.fullObjectRules(rules)`: a new builder whose own rules are
      `{...own, ...rules}`; the children are copied. */
  function FullObjectRules(b: Builder, rules: seq<(string, RuleEntry)>): Builder {
    Builder(OrderedMaps.Merge(b.ownRules, rules), b.children)
  }

  /** How `rules(...)` converts one entry: a validator stays, a rule map
      becomes `init().fullObjectRules(entry)`. */
  function Promote(spec: ChildSpec): Validator {
    match spec
    case Nested(v) => v
    case RuleSet(rules) => Scheme(FullObjectRules(Init(), rules))
  }

  /** The converted entries, key by key. */
  function Convert(specs: seq<(string, ChildSpec)>): (converted: seq<(string, Validator)>)
    ensures OrderedMaps.Keys(converted) == OrderedMaps.Keys(specs)
    ensures forall i :: 0 <= i < |specs| ==> converted[i].1 == Promote(specs[i].1)
  {
    seq(|specs|, i requires 0 <= i < |specs| => (specs[i].0, Promote(specs[i].1)))
  }

  /** `builder.rules(children)`: a new builder whose children are
      `{...children, ...converted}`; the own rules are copied. */
  function Rules(b: Builder, specs: seq<(string, ChildSpec)>): Builder {
    Builder(b.ownRules, OrderedMaps.Merge(b.children, Convert(specs)))
  }
}

=== FILE: engine_properties.dfy ===
/** What the builder and the `validate` walk promise: last-write-wins
    extension, `null` exactly when nothing failed, results attached under
    the field that failed, and the shapes of the `list` and `map` results. */
module EngineProperties {
  import opened Options
  import opened Values
  import opened RuleScan
  import opened Engine
  import opened OrderedMaps

  /** The entries `KeepFailed` keeps are the failing ones, under their own
      keys; passing keys are absent rather than `null`. */
  lemma {:induction false} KeepFailedLookup(rs: seq<(string, Report)>, k: string)
    requires DistinctKeys(rs)
    ensures Lookup(KeepFailed(rs), k)
         == match Lookup(rs, k)
            case Some(r) => if Failed(r) then Some(r) else None
            case None => None
    decreases |rs|
  {
    if rs != [] {
      var h, t := rs[0], rs[1..];
      assert DistinctKeys(t) by {
        forall i, j | 0 <= i < j < |t| ensures t[i].0 != t[j].0 {
          assert t[i] == rs[i + 1] && t[j] == rs[j + 1];
        }
      }
      KeepFailedLookup(t, k);
      KeysSuffix(rs);
      assert Lookup(rs, k) == if h.0 == k then Some(h.1) else Lookup(t, k);
      if h.0 == k {
        assert k !in Keys(t) by {
          forall i | 0 <= i < |t| ensures Keys(t)[i] != k {
            assert t[i] == rs[i + 1];
          }
        }
      }
      if Failed(h.1) {
        assert KeepFailed(rs) == [h] + KeepFailed(t);
        assert ([h] + KeepFailed(t))[1..] == KeepFailed(t);
      } else {
        assert KeepFailed(rs) == KeepFailed(t);
      }
    }
  }

  /** Filtering keeps keys distinct: it only drops entries. */
  lemma {:induction false} KeepFailedDistinct(rs: seq<(string, Report)>)
    requires DistinctKeys(rs)
    ensures DistinctKeys(KeepFailed(rs))
    decreases |rs|
  {
    if rs != [] {
      var h, t := rs[0], rs[1..];
      DistinctSplit(rs);
      KeepFailedDistinct(t);
      var kt := KeepFailed(t);
      if Failed(h.1) {
        KeepFailedLookup(t, h.0);
        DistinctCons(h, kt);
        assert KeepFailed(rs) == [h] + kt;
      } else {
        assert KeepFailed(rs) == kt;
      }
    }
  }

  /** What filtering keeps, entry by entry, for a map with distinct keys:
      the kept keys are distinct, each is an input key, and each input key
      is kept with its result exactly when that result is truthy. */
  lemma KeepFailedSummary(rs: seq<(string, Report)>)
    requires DistinctKeys(rs)
    ensures DistinctKeys(KeepFailed(rs))
    ensures forall k :: k in Keys(KeepFailed(rs)) ==> k in Keys(rs)
    ensures forall i :: 0 <= i < |rs| ==>
      Lookup(KeepFailed(rs), rs[i].0) == if Failed(rs[i].1) then Some(rs[i].1) else None
  {
    KeepFailedDistinct(rs);
    forall k | k in Keys(KeepFailed(rs))
      ensures k in Keys(rs)
    {
      KeepFailedLookup(rs, k);
    }
    forall i | 0 <= i < |rs|
      ensures Lookup(KeepFailed(rs), rs[i].0) == if Failed(rs[i].1) then Some(rs[i].1) else None
    {
      LookupAt(rs, i);
      KeepFailedLookup(rs, rs[i].0);
    }
  }

  /** Child `j`'s entry is its validator's result on `data[key]`. */
  lemma {:induction false} ChildResultsAt(b: Builder, d: Value, i: nat, j: nat)
    requires i <= j < |b.children|
    requires SchemeFits(b, d)
    ensures Fits(b.children[j].1, Get(d, b.children[j].0))
    ensures ChildResults(b, d, i)[j - i]
         == (b.children[j].0, Validate(b.children[j].1, Get(d, b.children[j].0)))
    decreases j - i
  {
    assert b.children[j] in b.children;
    if i < j {
      ChildResultsAt(b, d, i + 1, j);
      assert b.children[i] in b.children;
      var key := b.children[i].0;
      var head := (key, Validate(b.children[i].1, Get(d, key)));
      var rest := ChildResults(b, d, i + 1);
      assert ChildResults(b, d, i) == [head] + rest;
      assert rest[j - i - 1] == (b.children[j].0, Validate(b.children[j].1, Get(d, b.children[j].0)));
      assert ([head] + rest)[j - i] == rest[j - i - 1];
    }
  }

  /** `list`'s `i`-th entry is the item validator's result on `xs[i]`. */
  lemma {:induction false} ListResultsAt(item: Validator, xs: seq<Value>, i: nat)
    requires forall j :: 0 <= j < |xs| ==> Fits(item, xs[j])
    requires i < |xs|
    ensures ListResults(item, xs)[i] == Validate(item, xs[i])
    decreases i
  {
    if i > 0 {
      assert xs[1..][i - 1] == xs[i];
      ListResultsAt(item, xs[1..], i - 1);
    }
  }

  /** `map`'s result for key `i` is the item validator's result on its value. */
  lemma {:induction false} MapResultsAt(item: Validator, fields: seq<(string, Value)>, i: nat)
    requires forall j :: 0 <= j < |fields| ==> Fits(item, fields[j].1)
    requires i < |fields|
    ensures MapResults(item, fields)[i] == (fields[i].0, Validate(item, fields[i].1))
    decreases i
  {
    if i > 0 {
      assert fields[1..][i - 1] == fields[i];
      MapResultsAt(item, fields[1..], i - 1);
    }
  }

  /** `validate` returns `null` exactly when the own rules pass and every
      child's result is falsy. */
  lemma SchemeNullIff(b: Builder, d: Value)
    requires SchemeFits(b, d)
    ensures ValidateScheme(b, d) == Nothing <==>
      && ValidateRules(d, b.ownRules).None?
      && forall i :: 0 <= i < |b.children| ==>
           (assert b.children[i] in b.children;
            !Failed(Validate(b.children[i].1, Get(d, b.children[i].0))))
  {
    var rs := ChildResults(b, d, 0);
    forall i | 0 <= i < |b.children|
      ensures rs[i].1 == Validate(b.children[i].1, Get(d, b.children[i].0))
    {
      ChildResultsAt(b, d, 0, i);
    }
  }

  /** A failing node's result: the own-rule errors (empty when the own rules
      passed) and, under each child's field name, that child's result
      exactly when it is truthy; no other field is attached. */
  lemma SchemeReport(b: Builder, d: Value)
    requires SchemeFits(b, d)
    requires DistinctKeys(b.children)
    ensures var r := ValidateScheme(b, d);
      r != Nothing ==>
        && r.own == ValidateRules(d, b.ownRules).GetOr([])
        && DistinctKeys(r.fields)
        && (forall k :: k in Keys(r.fields) ==> k in Keys(b.children))
        && forall i :: 0 <= i < |b.children| ==>
             (assert b.children[i] in b.children;
              var res := Validate(b.children[i].1, Get(d, b.children[i].0));
              Lookup(r.fields, b.children[i].0) == if Failed(res) then Some(res) else None)
  {
    var rs := ChildResults(b, d, 0);
    forall i | 0 <= i < |b.children|
      ensures rs[i].0 == b.children[i].0
      ensures rs[i].1 == Validate(b.children[i].1, Get(d, b.children[i].0))
    {
      ChildResultsAt(b, d, 0, i);
    }
    assert Keys(rs) == Keys(b.children);
    SameKeysDistinct(rs, b.children);
    KeepFailedSummary(rs);
  }

  /** `list(item).validate(xs)` is `null` exactly when every element's
      result is falsy; otherwise it has one entry per element, in order, each
      the element's own result (falsy placeholders included). */
  lemma ListPositional(item: Validator, xs: seq<Value>)
    requires Fits(ListOf(item), Arr(xs))
    ensures var r := Validate(ListOf(item), Arr(xs));
      && (r == Nothing <==> forall i :: 0 <= i < |xs| ==> !Failed(Validate(item, xs[i])))
      && (r != Nothing ==>
            r.Items? && |r.items| == |xs|
            && forall i :: 0 <= i < |xs| ==> r.items[i] == Validate(item, xs[i]))
  {
    forall i | 0 <= i < |xs|
      ensures ListResults(item, xs)[i] == Validate(item, xs[i])
    {
      ListResultsAt(item, xs, i);
    }
  }

  /** `map(item).validate(data)` has distinct keys when `Object.keys(data)`
      does. */
  lemma MapEntriesDistinct(item: Validator, d: Value)
    requires Fits(MapOf(item), d)
    requires DistinctKeys(OwnEntries(d))
    ensures var r := Validate(MapOf(item), d);
      r != Nothing ==> r.Keyed? && DistinctKeys(r.entries)
  {
    var fields := OwnEntries(d);
    var rs := MapResults(item, fields);
    forall i | 0 <= i < |fields|
      ensures rs[i].0 == fields[i].0
    {
      MapResultsAt(item, fields, i);
    }
    assert Keys(rs) == Keys(fields);
    SameKeysDistinct(rs, fields);
    KeepFailedDistinct(rs);
  }

  /** `map(item).validate(data)` is `null` exactly when the result for
      every key of `Object.keys(data)` is falsy. */
  lemma MapNullIff(item: Validator, d: Value)
    requires Fits(MapOf(item), d)
    ensures var fields := OwnEntries(d);
      Validate(MapOf(item), d) == Nothing <==> forall i :: 0 <= i < |fields| ==> !Failed(Validate(item, fields[i].1))
  {
    var fields := OwnEntries(d);
    var rs := MapResults(item, fields);
    forall i | 0 <= i < |fields|
      ensures rs[i].1 == Validate(item, fields[i].1)
    {
      MapResultsAt(item, fields, i);
    }
  }

  /** Every key of a non-`null` `map(item).validate(data)` is a key of the
      data. */
  lemma MapKeysFromData(item: Validator, d: Value)
    requires Fits(MapOf(item), d)
    requires DistinctKeys(OwnEntries(d))
    ensures var r := Validate(MapOf(item), d);
      r != Nothing ==> r.Keyed? && forall k :: k in Keys(r.entries) ==> k in Keys(OwnEntries(d))
  {
    var fields := OwnEntries(d);
    var rs := MapResults(item, fields);
    forall i | 0 <= i < |fields|
      ensures rs[i].0 == fields[i].0
    {
      MapResultsAt(item, fields, i);
    }
    assert Keys(rs) == Keys(fields);
    SameKeysDistinct(rs, fields);
    KeepFailedSummary(rs);
  }

  /** Each key of the data is in a non-`null` `map(item).validate(data)`
      exactly when its result is truthy, and then with that result. */
  lemma MapLookupFailing(item: Validator, d: Value)
    requires Fits(MapOf(item), d)
    requires DistinctKeys(OwnEntries(d))
    ensures var r := Validate(MapOf(item), d);
      var fields := OwnEntries(d);
      r != Nothing ==>
        && r.Keyed?
        && forall i :: 0 <= i < |fields| ==>
             var res := Validate(item, fields[i].1);
             Lookup(r.entries, fields[i].0) == if Failed(res) then Some(res) else None
  {
    var fields := OwnEntries(d);
    var rs := MapResults(item, fields);
    forall i | 0 <= i < |fields|
      ensures rs[i] == (fields[i].0, Validate(item, fields[i].1))
    {
      MapResultsAt(item, fields, i);
    }
    assert Keys(rs) == Keys(fields);
    SameKeysDistinct(rs, fields);
    KeepFailedSummary(rs);
  }

  /** `map(item).validate(data)` is `null` exactly when the result for
      every key of `Object.keys(data)` is falsy; otherwise it holds exactly
      the failing keys, each once and with its result, and no passing key. */
  lemma MapFailingKeys(item: Validator, d: Value)
    requires Fits(MapOf(item), d)
    requires DistinctKeys(OwnEntries(d))
    ensures var r := Validate(MapOf(item), d);
      var fields := OwnEntries(d);
      && (r == Nothing <==> forall i :: 0 <= i < |fields| ==> !Failed(Validate(item, fields[i].1)))
      && (r != Nothing ==>
            && r.Keyed?
            && DistinctKeys(r.entries)
            && (forall k :: k in Keys(r.entries) ==> k in Keys(fields))
            && forall i :: 0 <= i < |fields| ==>
                 var res := Validate(item, fields[i].1);
                 Lookup(r.entries, fields[i].0) == if Failed(res) then Some(res) else None)
  {
    MapNullIff(item, d);
    MapEntriesDistinct(item, d);
    MapKeysFromData(item, d);
    MapLookupFailing(item, d);
  }

  /** `map` over an array visits its indices in order: `Object.keys` of an
      array lists `"0"`, `"1"`, ... with the elements there. */
  lemma MapOverArray(item: Validator, xs: seq<Value>)
    requires forall i :: 0 <= i < |xs| ==> Fits(item, xs[i])
    ensures Fits(MapOf(item), Arr(xs))
    ensures var r := Validate(MapOf(item), Arr(xs));
      && (r == Nothing <==> forall i :: 0 <= i < |xs| ==> !Failed(Validate(item, xs[i])))
      && (r != Nothing ==>
            && r.Keyed?
            && DistinctKeys(r.entries)
            && (forall k :: k in Keys(r.entries) ==> IndexKeyBelow(k, |xs|))
            && forall i :: 0 <= i < |xs| ==>
                 var res := Validate(item, xs[i]);
                 Lookup(r.entries, IndexKey(i)) == if Failed(res) then Some(res) else None)
  {
    ArrayEntries(xs);
    MapFailingKeys(item, Arr(xs));
  }

  /** `map` over a number, a boolean or the empty string sees no keys and
      returns `null`. */
  lemma MapOverKeyless(item: Validator, d: Value)
    requires d.Bool? || d.Num? || d == Str("")
    ensures Fits(MapOf(item), d)
    ensures Validate(MapOf(item), d) == Nothing
  {
  }

  /** A builder without children reports its own rules alone: `null` when
      they pass, else their errors with nothing attached. */
  lemma OwnRulesOnly(b: Builder, d: Value)
    requires b.children == []
    ensures SchemeFits(b, d)
    ensures ValidateScheme(b, d)
         == match ValidateRules(d, b.ownRules)
            case None => Nothing
            case Some(errors) => Node(errors, [])
  {
  }

  /** A fresh builder accepts every value. */
  lemma InitAcceptsEverything(d: Value)
    ensures ValidateScheme(Init(), d) == Nothing
  {
  }

  /** `fullObjectRules(rules)`: the own rules become `{...own, ...rules}`
      (a rule of the same name is replaced where it stands, new names go
      last) and the children are unchanged. */
  lemma FullObjectRulesMerges(b: Builder, rules: seq<(string, RuleEntry)>, k: string)
    requires DistinctKeys(rules)
    ensures FullObjectRules(b, rules).children == b.children
    ensures Lookup(FullObjectRules(b, rules).ownRules, k)
         == if k in Keys(rules) then Lookup(rules, k) else Lookup(b.ownRules, k)
    ensures Keys(FullObjectRules(b, rules).ownRules)
         == Keys(b.ownRules) + NewKeys(Keys(b.ownRules), Keys(rules))
  {
    MergeLookup(b.ownRules, rules, k);
    MergeKeys(b.ownRules, rules);
  }

  lemma {:induction false} ConvertLookup(specs: seq<(string, ChildSpec)>, k: string)
    ensures Lookup(Convert(specs), k)
         == match Lookup(specs, k)
            case Some(spec) => Some(Promote(spec))
            case None => None
    decreases |specs|
  {
    if specs != [] {
      assert Convert(specs)[1..] == Convert(specs[1..]);
      ConvertLookup(specs[1..], k);
    }
  }

  /** `rules(children)`: each given field now holds its converted entry (a
      validator as given, a rule map promoted to a builder), every other
      field keeps its child, new fields go last, and the own rules are
      unchanged. */
  lemma RulesMerges(b: Builder, specs: seq<(string, ChildSpec)>, k: string)
    requires DistinctKeys(specs)
    ensures Rules(b, specs).ownRules == b.ownRules
    ensures Lookup(Rules(b, specs).children, k)
         == match Lookup(specs, k)
            case Some(spec) => Some(Promote(spec))
            case None => Lookup(b.children, k)
    ensures Keys(Rules(b, specs).children)
         == Keys(b.children) + NewKeys(Keys(b.children), Keys(specs))
  {
    var converted := Convert(specs);
    SameKeysDistinct(converted, specs);
    MergeLookup(b.children, converted, k);
    MergeKeys(b.children, converted);
    ConvertLookup(specs, k);
  }

  /** A rule map given to `rules(...)` validates its field the way
      `validateRules` does: `null` when the rules pass, else the own-error
      array with no children. */
  lemma PromotedRuleSet(rules: seq<(string, RuleEntry)>, d: Value)
    requires DistinctKeys(rules)
    ensures Fits(Promote(RuleSet(rules)), d)
    ensures Validate(Promote(RuleSet(rules)), d)
         == match ValidateRules(d, rules)
            case None => Nothing
            case Some(errors) => Node(errors, [])
  {
    MergeFresh([], rules);
    assert [] + rules == rules;
  }
}

=== FILE: options.dfy ===
/** The optional value used wherever the source returns `null` (or leaves a
    property out) instead of a value. */
module Options {

  datatype Option<+T> = None | Some(value: T) {

    /** The wrapped value, or `default` when there is none (`x ?? default`). */
    function GetOr(default: T): T {
      match this
      case Some(v) => v
      case None => default
    }
  }
}

=== FILE: ordered_maps.dfy ===
/** Ordered string-keyed maps, the way a plain JavaScript object enumerates
    its own keys: a sequence of (key, value) pairs. Object spread
    (`{...a, ...b}`) writes each entry of `b` over `a` in turn; an existing
    key keeps its position and a new key is appended. */
module OrderedMaps {
  import opened Options

  /** The keys of `m`, in enumeration order (`Object.keys`). */
  function Keys<V>(m: seq<(string, V)>): (ks: seq<string>)
    ensures |ks| == |m|
    ensures forall i :: 0 <= i < |m| ==> ks[i] == m[i].0
  {
    seq(|m|, i requires 0 <= i < |m| => m[i].0)
  }

  /** No key occurs twice: true of every map built from a JavaScript object. */
  predicate DistinctKeys<V>(m: seq<(string, V)>) {
    forall i, j :: 0 <= i < j < |m| ==> m[i].0 != m[j].0
  }

  /** `m[k]`: the value stored under `k`, if any. */
  function Lookup<V>(m: seq<(string, V)>, k: string): (r: Option<V>)
    ensures r.Some? <==> k in Keys(m)
  {
    if m == [] then None
    else if m[0].0 == k then Some(m[0].1)
    else KeysSuffix(m); Lookup(m[1..], k)
  }

  /** `m[k] = v`: an existing key is overwritten where it stands, a new key
      goes last. */
  function Put<V>(m: seq<(string, V)>, k: string, v: V): (r: seq<(string, V)>)
    ensures |r| == if k in Keys(m) then |m| else |m| + 1
  {
    if m == [] then [(k, v)]
    else if m[0].0 == k then [(k, v)] + m[1..]
    else KeysSuffix(m); [m[0]] + Put(m[1..], k, v)
  }

  /** `{...a, ...b}`: the entries of `b` written over `a`, in `b`'s order. */
  function Merge<V>(a: seq<(string, V)>, b: seq<(string, V)>): seq<(string, V)>
    decreases |b|
  {
    if b == [] then a else Merge(Put(a, b[0].0, b[0].1), b[1..])
  }

  /** The keys of `later` that are not among `ks`, in the order of `later`. */
  function NewKeys(ks: seq<string>, later: seq<string>): seq<string>
  {
    if later == [] then []
    else (if later[0] in ks then [] else [later[0]]) + NewKeys(ks, later[1..])
  }


  lemma KeysSuffix<V>(m: seq<(string, V)>)
    requires m != []
    ensures Keys(m) == [m[0].0] + Keys(m[1..])
  {
  }

  /** Reading back after `m[k] = v`: `k` holds `v`, every other key is as
      before. */
  lemma {:induction false} PutLookup<V>(m: seq<(string, V)>, k: string, v: V, k': string)
    ensures Lookup(Put(m, k, v), k') == if k' == k then Some(v) else Lookup(m, k')
  {
    if m != [] && m[0].0 != k {
      PutLookup(m[1..], k, v, k');
    }
  }

  /** `m[k] = v` keeps the key order and appends `k` only when it is new. */
  lemma {:induction false} PutKeys<V>(m: seq<(string, V)>, k: string, v: V)
    ensures Keys(Put(m, k, v)) == if k in Keys(m) then Keys(m) else Keys(m) + [k]
  {
    if m != [] {
      KeysSuffix(m);
      if m[0].0 != k {
        PutKeys(m[1..], k, v);
        KeysSuffix(Put(m, k, v));
      } else {
        KeysSuffix(Put(m, k, v));
      }
    }
  }

  /** Distinct keys stay distinct when one more entry is written. */
  lemma {:induction false} PutDistinct<V>(m: seq<(string, V)>, k: string, v: V)
    requires DistinctKeys(m)
    ensures DistinctKeys(Put(m, k, v))
  {
    var r := Put(m, k, v);
    PutKeys(m, k, v);
    forall i, j | 0 <= i < j < |r|
      ensures r[i].0 != r[j].0
    {
      assert Keys(r)[i] == r[i].0 && Keys(r)[j] == r[j].0;
      if k !in Keys(m) && j == |m| {
        assert Keys(m)[i] == m[i].0;
      } else {
        assert Keys(m)[i] == m[i].0 && Keys(m)[j] == m[j].0;
      }
    }
  }

  /** Writing a key that is not there yet appends it. */
  lemma {:induction false} PutFresh<V>(m: seq<(string, V)>, k: string, v: V)
    requires k !in Keys(m)
    ensures Put(m, k, v) == m + [(k, v)]
  {
    if m != [] {
      KeysSuffix(m);
      PutFresh(m[1..], k, v);
      assert [m[0]] + (m[1..] + [(k, v)]) == m + [(k, v)];
    }
  }

  /** Spreading keeps distinct keys distinct. */
  lemma {:induction false} MergeDistinct<V>(a: seq<(string, V)>, b: seq<(string, V)>)
    requires DistinctKeys(a)
    ensures DistinctKeys(Merge(a, b))
    decreases |b|
  {
    if b != [] {
      PutDistinct(a, b[0].0, b[0].1);
      MergeDistinct(Put(a, b[0].0, b[0].1), b[1..]);
    }
  }

  /** Last write wins: after `{...a, ...b}` a key holds `b`'s value when `b`
      has the key, and `a`'s value (or nothing) otherwise. */
  lemma {:induction false} MergeLookup<V>(a: seq<(string, V)>, b: seq<(string, V)>, k: string)
    requires DistinctKeys(b)
    ensures Lookup(Merge(a, b), k) == if k in Keys(b) then Lookup(b, k) else Lookup(a, k)
    decreases |b|
  {
    if b != [] {
      var a' := Put(a, b[0].0, b[0].1);
      KeysSuffix(b);
      assert DistinctKeys(b[1..]);
      MergeLookup(a', b[1..], k);
      PutLookup(a, b[0].0, b[0].1, k);
      if k == b[0].0 {
        assert k !in Keys(b[1..]) by {
          forall i | 0 <= i < |b[1..]| ensures Keys(b[1..])[i] != k {
            assert b[1..][i] == b[i + 1];
          }
        }
      }
    }
  }

  lemma {:induction false} NewKeysSkip(ks: seq<string>, x: string, later: seq<string>)
    requires x !in later
    ensures NewKeys(ks + [x], later) == NewKeys(ks, later)
    decreases |later|
  {
    if later != [] {
      assert later[0] in ks + [x] <==> later[0] in ks;
      NewKeysSkip(ks, x, later[1..]);
    }
  }

  /** The facts about a map with distinct keys split into first entry and
      rest. */
  lemma DistinctSplit<V>(b: seq<(string, V)>)
    requires b != [] && DistinctKeys(b)
    ensures Keys(b) == [b[0].0] + Keys(b[1..])
    ensures DistinctKeys(b[1..])
    ensures b[0].0 !in Keys(b[1..])
  {
    KeysSuffix(b);
    forall i | 0 <= i < |b[1..]| ensures Keys(b[1..])[i] != b[0].0 {
      assert b[1..][i] == b[i + 1];
    }
  }

  lemma NewKeysCons(ks: seq<string>, x: string, rest: seq<string>)
    ensures NewKeys(ks, [x] + rest) == (if x in ks then [] else [x]) + NewKeys(ks, rest)
  {
    assert ([x] + rest)[1..] == rest;
  }

  /** Key order after `{...a, ...b}`: the keys of `a` keep their order and
      come first, then the keys only `b` has, in `b`'s order. */
  lemma {:induction false} MergeKeys<V>(a: seq<(string, V)>, b: seq<(string, V)>)
    requires DistinctKeys(b)
    ensures Keys(Merge(a, b)) == Keys(a) + NewKeys(Keys(a), Keys(b))
    decreases |b|
  {
    if b != [] {
      var k0, b' := b[0].0, b[1..];
      var a' := Put(a, k0, b[0].1);
      DistinctSplit(b);
      MergeKeys(a', b');
      PutKeys(a, k0, b[0].1);
      assert Merge(a, b) == Merge(a', b');
      MergeKeysStep(Keys(a), Keys(a'), k0, Keys(b'), Keys(Merge(a, b)));
    }
  }

  /** One step of `MergeKeys`, on the key sequences alone. */
  lemma MergeKeysStep(ka: seq<string>, ka': seq<string>, k0: string, kb': seq<string>, km: seq<string>)
    requires ka' == if k0 in ka then ka else ka + [k0]
    requires k0 !in kb'
    requires km == ka' + NewKeys(ka', kb')
    ensures km == ka + NewKeys(ka, [k0] + kb')
  {
    var rest := NewKeys(ka, kb');
    NewKeysCons(ka, k0, kb');
    if k0 !in ka {
      NewKeysSkip(ka, k0, kb');
      AppendAssoc(ka, k0, rest);
    }
  }

  lemma AppendAssoc(ka: seq<string>, k0: string, rest: seq<string>)
    ensures (ka + [k0]) + rest == ka + ([k0] + rest)
  {
  }

  /** Spreading into an object that shares no key with `b` appends `b`
      unchanged; in particular `{...{}, ...b}` is a copy of `b`. */
  lemma {:induction false} MergeFresh<V>(a: seq<(string, V)>, b: seq<(string, V)>)
    requires DistinctKeys(b)
    requires forall i :: 0 <= i < |b| ==> b[i].0 !in Keys(a)
    ensures Merge(a, b) == a + b
    decreases |b|
  {
    if b != [] {
      PutFresh(a, b[0].0, b[0].1);
      var a' := a + [b[0]];
      forall i | 0 <= i < |b[1..]|
        ensures b[1..][i].0 !in Keys(a')
      {
        assert b[1..][i] == b[i + 1];
      }
      MergeFresh(a', b[1..]);
      assert a' + b[1..] == a + b;
    }
  }

  /** `{...{}, ...b}` is a copy of `b`. */
  lemma MergeIntoEmpty<V>(b: seq<(string, V)>)
    requires DistinctKeys(b)
    ensures Merge([], b) == b
  {
    MergeFresh([], b);
    assert [] + b == b;
  }

  /** With distinct keys, looking up the key at position `i` finds the value
      at position `i`. */
  lemma {:induction false} LookupAt<V>(m: seq<(string, V)>, i: nat)
    requires DistinctKeys(m)
    requires i < |m|
    ensures Lookup(m, m[i].0) == Some(m[i].1)
    decreases i
  {
    if i > 0 {
      assert m[i].0 != m[0].0;
      assert m[1..][i - 1] == m[i];
      LookupAt(m[1..], i - 1);
    }
  }

  /** Putting a fresh key in front keeps the keys distinct. */
  lemma DistinctCons<V>(h: (string, V), t: seq<(string, V)>)
    requires DistinctKeys(t) && h.0 !in Keys(t)
    ensures DistinctKeys([h] + t)
  {
    var m := [h] + t;
    forall i, j | 0 <= i < j < |m|
      ensures m[i].0 != m[j].0
    {
      assert m[j] == t[j - 1] && Keys(t)[j - 1] == t[j - 1].0;
      if i > 0 {
        assert m[i] == t[i - 1];
      }
    }
  }

  /** Distinctness depends on the keys alone. */
  lemma SameKeysDistinct<V, W>(m: seq<(string, V)>, n: seq<(string, W)>)
    requires Keys(m) == Keys(n)
    ensures DistinctKeys(m) <==> DistinctKeys(n)
  {
    assert forall i :: 0 <= i < |m| ==> m[i].0 == Keys(m)[i] == n[i].0;
  }
}

=== FILE: records.dfy ===
/** The `{type, error?}` record that reports one failed rule. The same
    conversion appears twice in the source: in the rule scan and in the
    `Result` error view. */
module Records {
  import opened Options
  import opened Values

  /** `ruleType` is the record's `type` property: the failed rule's name. */
  datatype ErrorRecord = ErrorRecord(ruleType: string, error: Option<Value>)

  /** The value the record stands for: `true` when it has no `error`. */
  function PayloadOf(e: ErrorRecord): Value {
    match e.error
    case None => Bool(true)
    case Some(v) => v
  }

  /** A record as `getError` builds it never carries `error: true`. */
  predicate WellFormed(e: ErrorRecord) {
    e.error != Some(Bool(true))
  }

  /** `getError(key, result)`: `{type: key}` for exactly `true`, otherwise
      `{type: key, error: result}`, whatever the value (even `0` or `""`). */
  function RecordOf(key: string, result: Value): (e: ErrorRecord)
    ensures e.ruleType == key
    ensures e.error.None? <==> result == Bool(true)
    ensures PayloadOf(e) == result
    ensures WellFormed(e)
  {
    if result == Bool(true) then ErrorRecord(key, None) else ErrorRecord(key, Some(result))
  }

  /** Every well-formed record is rebuilt from its name and payload, so
      `RecordOf` and `PayloadOf` are inverse. */
  lemma RecordRoundTrip(e: ErrorRecord)
    requires WellFormed(e)
    ensures RecordOf(e.ruleType, PayloadOf(e)) == e
  {
  }
}

=== FILE: result_view.dfy ===
/** The `Result` class and `getErrors`: a keyed record of failures (rule
    name to payload) with a derived, ordered list of `{type, error?}`
    records. The source keeps that list in a private weak map keyed by the
    instance; here it is derived from the instance's fields, which never
    change. */
module ResultView {
  import opened Options
  import opened Values
  import opened Records
  import opened OrderedMaps

  /** An instance of `Result`: its own fields, in key order. */
  datatype ResultObject = ResultObject(fields: seq<(string, Value)>)

  /** `new Result(errors)`: the instance takes every field of `errors`
      unchanged. `Object.assign` cannot write a field named `errors`, since
      the class only gives that name a getter, so that input throws
      (`None`). */
  function Construct(errors: seq<(string, Value)>): (r: Option<ResultObject>)
    ensures r.None? <==> "errors" in Keys(errors)
    ensures r.Some? ==> r.value.fields == errors
  {
    if "errors" in Keys(errors) then None else Some(ResultObject(errors))
  }

  /** One record per field, in field order: `{type: key}` for a value of
      exactly `true`, `{type: key, error: value}` for any other value. */
  function RecordsOf(fields: seq<(string, Value)>): (es: seq<ErrorRecord>)
    ensures |es| == |fields|
    ensures forall i :: 0 <= i < |fields| ==> es[i].ruleType == fields[i].0
    ensures forall i :: 0 <= i < |fields| ==>
              PayloadOf(es[i]) == fields[i].1 && (es[i].error.None? <==> fields[i].1 == Bool(true))
  {
    seq(|fields|, i requires 0 <= i < |fields| => RecordOf(fields[i].0, fields[i].1))
  }

  /** The keyed view a record list stands for: each record's name with its
      payload (`true` when the record has no `error`). */
  function FieldsOf(es: seq<ErrorRecord>): (fields: seq<(string, Value)>)
    ensures |fields| == |es|
  {
    seq(|es|, i requires 0 <= i < |es| => (es[i].ruleType, PayloadOf(es[i])))
  }

  /** The `errors` getter: `null` when the instance has no fields, else the
      records of its fields in key order. */
  function ErrorsOf(r: ResultObject): (errs: Option<seq<ErrorRecord>>)
    ensures errs.None? <==> r.fields == []
    ensures errs.Some? ==> |errs.value| == |r.fields|
    ensures errs.Some? ==> forall i :: 0 <= i < |r.fields| ==> errs.value[i].ruleType == r.fields[i].0
    ensures errs.Some? ==> forall i :: 0 <= i < |r.fields| ==>
              PayloadOf(errs.value[i]) == r.fields[i].1 && (errs.value[i].error.None? <==> r.fields[i].1 == Bool(true))
  {
    if |r.fields| == 0 then None else Some(RecordsOf(r.fields))
  }

  /** Anything `getErrors` may be handed: an instance built by `Result`, or
      some other value. */
  datatype Candidate = Instance(result: ResultObject) | Foreign(value: Value)

  /** What the private weak map holds for a candidate: nothing
      (`undefined`) for a value it never saw, else the stored list or
      `null`. */
  datatype Stored = Missing | Entry(errors: Option<seq<ErrorRecord>>)

  /** `getErrors(result)`. */
  function GetErrors(c: Candidate): (s: Stored)
    ensures c.Foreign? <==> s.Missing?
    ensures c.Instance? ==> s == Entry(ErrorsOf(c.result))
  {
    match c
    case Instance(r) => Entry(ErrorsOf(r))
    case Foreign(_) => Missing
  }

  /** The record list loses nothing: the fields are recovered from it,
      falsy payloads such as `0`, `""` and `false` included. */
  lemma {:induction false} FieldsOfRecordsOf(fields: seq<(string, Value)>)
    ensures FieldsOf(RecordsOf(fields)) == fields
  {
    var es := RecordsOf(fields);
    forall i | 0 <= i < |fields|
      ensures FieldsOf(es)[i] == fields[i]
    {
      assert es[i] == RecordOf(fields[i].0, fields[i].1);
    }
  }

  /** Conversely, a list of well-formed records is the record view of the
      fields it stands for. */
  lemma {:induction false} RecordsOfFieldsOf(es: seq<ErrorRecord>)
    requires forall i :: 0 <= i < |es| ==> WellFormed(es[i])
    ensures RecordsOf(FieldsOf(es)) == es
  {
    forall i | 0 <= i < |es|
      ensures RecordsOf(FieldsOf(es))[i] == es[i]
    {
      RecordRoundTrip(es[i]);
    }
  }

  /** `getErrors` on an instance agrees with its `errors` getter, for every
      instance `Result` can build. */
  lemma GetErrorsAgrees(errors: seq<(string, Value)>)
    requires "errors" !in Keys(errors)
    ensures Construct(errors).Some?
    ensures GetErrors(Instance(Construct(errors).value)) == Entry(ErrorsOf(ResultObject(errors)))
  {
  }
}

=== FILE: rule_scan.dfy ===
/** `validateRules` and `allOf`: how a node's own rules are evaluated.
    Ordinary rules are scanned in key order and the scan stops at the first
    failure; an all-of group occupies one scan position and reports every
    failing member. The source marks a group by attaching a flag to a thunk;
    here the flag is the `GroupHead` variant. */
module RuleScan {
  import opened Options
  import opened Values
  import opened Records
  import OrderedMaps

  /** A rule: a pure function of the validated value. */
  type Rule = Value -> Value

  /** One entry of a rule map. `GroupHead` is the flagged thunk `allOf`
      puts under the group's first key; `Placeholder` is the `() => false`
      it puts under every other key. */
  datatype RuleEntry =
    | Single(check: Rule)
    | GroupHead(members: seq<(string, Rule)>)
    | Placeholder

  /** Every member of a group is evaluated; the failing ones are reported in
      member order. */
  function GroupErrors(d: Value, members: seq<(string, Rule)>): (es: seq<ErrorRecord>)
    ensures |es| <= |members|
    ensures es == [] <==> forall i :: 0 <= i < |members| ==> Passes(members[i].1(d))
    ensures forall i :: 0 <= i < |es| ==> WellFormed(es[i])
    decreases |members|
  {
    if members == [] then []
    else
      var res := members[0].1(d);
      (if Passes(res) then [] else [RecordOf(members[0].0, res)]) + GroupErrors(d, members[1..])
  }

  /** What one scan position reports on its own: nothing when it passes. */
  function PositionErrors(d: Value, key: string, entry: RuleEntry): seq<ErrorRecord>
  {
    match entry
    case Single(check) => if Passes(check(d)) then [] else [RecordOf(key, check(d))]
    case GroupHead(members) => GroupErrors(d, members)
    case Placeholder => []
  }

  /** All positions of `rules` pass. */
  predicate AllPass(d: Value, rules: seq<(string, RuleEntry)>) {
    forall i :: 0 <= i < |rules| ==> PositionErrors(d, rules[i].0, rules[i].1) == []
  }

  /** `validateRules(data, rules)`: `None` stands for `null`. */
  function ValidateRules(d: Value, rules: seq<(string, RuleEntry)>): (r: Option<seq<ErrorRecord>>)
    ensures r.Some? ==> r.value != []
    ensures r.Some? ==> forall i :: 0 <= i < |r.value| ==> WellFormed(r.value[i])
    decreases |rules|
  {
    if rules == [] then None
    else
      var key := rules[0].0;
      match rules[0].1
      case GroupHead(members) =>
        var all := GroupErrors(d, members);
        if all != [] then Some(all) else ValidateRules(d, rules[1..])
      case Single(check) =>
        var res := check(d);
        if Passes(res) then ValidateRules(d, rules[1..]) else Some([RecordOf(key, res)])
      case Placeholder =>
        ValidateRules(d, rules[1..])
  }

  /** `allOf(rules)`: the same keys; the first holds the group, the others
      a rule that always passes. */
  function AllOf(rules: seq<(string, Rule)>): (r: seq<(string, RuleEntry)>)
    ensures OrderedMaps.Keys(r) == OrderedMaps.Keys(rules)
    ensures |rules| > 0 ==> r[0].1 == GroupHead(rules)
    ensures forall i :: 1 <= i < |r| ==> r[i].1 == Placeholder
  {
    if rules == [] then []
    else [(rules[0].0, GroupHead(rules))]
         + seq(|rules| - 1, i requires 0 <= i < |rules| - 1 => (rules[i + 1].0, Placeholder))
  }

  /** Group order: the members' failures come out in member order. */
  lemma {:induction false} GroupErrorsAppend(d: Value, a: seq<(string, Rule)>, b: seq<(string, Rule)>)
    ensures GroupErrors(d, a + b) == GroupErrors(d, a) + GroupErrors(d, b)
    decreases |a|
  {
    if a == [] {
      assert a + b == b;
    } else {
      assert (a + b)[0] == a[0];
      assert (a + b)[1..] == a[1..] + b;
      GroupErrorsAppend(d, a[1..], b);
    }
  }

  /** Group completeness: a record is reported exactly when it is the
      record of some failing member. */
  lemma {:induction false} GroupErrorsMembers(d: Value, members: seq<(string, Rule)>, e: ErrorRecord)
    ensures e in GroupErrors(d, members) <==>
      exists i :: 0 <= i < |members| && !Passes(members[i].1(d))
                  && e == RecordOf(members[i].0, members[i].1(d))
    decreases |members|
  {
    if members != [] {
      GroupErrorsMembers(d, members[1..], e);
      var tail := members[1..];
      if exists j :: 0 <= j < |tail| && !Passes(tail[j].1(d)) && e == RecordOf(tail[j].0, tail[j].1(d)) {
        var j :| 0 <= j < |tail| && !Passes(tail[j].1(d)) && e == RecordOf(tail[j].0, tail[j].1(d));
        assert members[j + 1] == tail[j];
      }
      if exists i :: 0 <= i < |members| && !Passes(members[i].1(d)) && e == RecordOf(members[i].0, members[i].1(d)) {
        var i :| 0 <= i < |members| && !Passes(members[i].1(d)) && e == RecordOf(members[i].0, members[i].1(d));
        if i > 0 {
          assert tail[i - 1] == members[i];
        }
      }
    }
  }

  /** The own rules pass (the scan returns `null`) exactly when every scan
      position passes. */
  lemma {:induction false} ScanPassesIff(d: Value, rules: seq<(string, RuleEntry)>)
    ensures ValidateRules(d, rules).None? <==> AllPass(d, rules)
    decreases |rules|
  {
    if rules != [] {
      ScanPassesIff(d, rules[1..]);
      assert forall i :: 1 <= i < |rules| ==> rules[1..][i - 1] == rules[i];
      if AllPass(d, rules[1..]) && PositionErrors(d, rules[0].0, rules[0].1) == [] {
        forall i | 0 <= i < |rules|
          ensures PositionErrors(d, rules[i].0, rules[i].1) == []
        {
          if i > 0 {
            assert rules[1..][i - 1] == rules[i];
          }
        }
      }
    }
  }

  /** First failure: when every position before `i` passes and position `i`
      fails, the scan reports exactly what position `i` reports; nothing
      after it is consulted. */
  lemma {:induction false} ScanStopsAtFirstFailure(d: Value, rules: seq<(string, RuleEntry)>, i: nat)
    requires i < |rules|
    requires AllPass(d, rules[..i])
    requires PositionErrors(d, rules[i].0, rules[i].1) != []
    ensures ValidateRules(d, rules) == Some(PositionErrors(d, rules[i].0, rules[i].1))
    decreases i
  {
    if i > 0 {
      assert rules[..i][0] == rules[0];
      var q := rules[1..][..i - 1];
      assert q == rules[..i][1..];
      forall j | 0 <= j < |q|
        ensures PositionErrors(d, q[j].0, q[j].1) == []
      {
        assert q[j] == rules[..i][j + 1];
      }
      ScanStopsAtFirstFailure(d, rules[1..], i - 1);
    }
  }

  /** Rules after a failure are never reached: appending rules to a map
      whose scan already fails does not change the report. */
  lemma {:induction false} ScanIgnoresLaterRules(d: Value, p: seq<(string, RuleEntry)>, s: seq<(string, RuleEntry)>)
    requires ValidateRules(d, p).Some?
    ensures ValidateRules(d, p + s) == ValidateRules(d, p)
    decreases |p|
  {
    assert p != [];
    assert (p + s)[0] == p[0];
    assert (p + s)[1..] == p[1..] + s;
    match p[0].1
    case GroupHead(members) =>
      if GroupErrors(d, members) == [] {
        ScanIgnoresLaterRules(d, p[1..], s);
      }
    case Single(check) =>
      if Passes(check(d)) {
        ScanIgnoresLaterRules(d, p[1..], s);
      }
    case Placeholder =>
      ScanIgnoresLaterRules(d, p[1..], s);
  }

  /** A passing prefix is transparent: the scan continues to what follows. */
  lemma {:induction false} ScanSkipsPassingPrefix(d: Value, p: seq<(string, RuleEntry)>, s: seq<(string, RuleEntry)>)
    requires AllPass(d, p)
    ensures ValidateRules(d, p + s) == ValidateRules(d, s)
    decreases |p|
  {
    if p == [] {
      assert p + s == s;
    } else {
      assert (p + s)[0] == p[0];
      assert (p + s)[1..] == p[1..] + s;
      assert PositionErrors(d, p[0].0, p[0].1) == [];
      forall j | 0 <= j < |p[1..]|
        ensures PositionErrors(d, p[1..][j].0, p[1..][j].1) == []
      {
        assert p[1..][j] == p[j + 1];
      }
      ScanSkipsPassingPrefix(d, p[1..], s);
    }
  }

  /** An all-of group is one scan position: after a passing prefix, the
      scan reports every failing member of the group together, or, when no
      member fails, goes on to the rules after the group. */
  lemma {:induction false} AllOfIsOneScanPosition(
    d: Value, p: seq<(string, RuleEntry)>, members: seq<(string, Rule)>, s: seq<(string, RuleEntry)>)
    requires AllPass(d, p)
    ensures ValidateRules(d, p + AllOf(members) + s)
         == if GroupErrors(d, members) != [] then Some(GroupErrors(d, members))
            else ValidateRules(d, s)
  {
    var g := AllOf(members);
    assert p + g + s == p + (g + s);
    ScanSkipsPassingPrefix(d, p, g + s);
    if members == [] {
      assert g + s == s;
    } else {
      var gs := g + s;
      assert gs[0] == (members[0].0, GroupHead(members));
      if GroupErrors(d, members) == [] {
        var rest := g[1..];
        assert gs[1..] == rest + s;
        forall j | 0 <= j < |rest|
          ensures PositionErrors(d, rest[j].0, rest[j].1) == []
        {
          assert rest[j] == g[j + 1];
        }
        ScanSkipsPassingPrefix(d, rest, s);
      }
    }
  }
}

=== FILE: scenarios.dfy ===
/** Worked examples: the schemes of the repository's own test file, with
    the results `validate` gives for the values it tries. */
module Scenarios {
  import opened Options
  import opened Values
  import opened Records
  import opened RuleScan
  import opened Engine
  import opened EngineProperties
  import OrderedMaps

  /** `v => !v`. */
  function Required(v: Value): Value {
    Bool(!Truthy(v))
  }

  /** `v => v.length <= 8`, meant for the ASCII strings of the examples,
      where a character is one UTF-16 code unit. A number or another value
      without `length` compares `undefined <= 8`, which is false; on `null`
      or `undefined`, where the source throws, this gives `false` too. An
      object with its own `length` field is outside the examples: the
      source would compare that field, and this gives `false`. */
  function MinLength(v: Value): Value {
    match v
    case Str(s) => Bool(|s| <= 8)
    case Arr(xs) => Bool(|xs| <= 8)
    case _ => Bool(false)
  }

  /** `v => !v.includes("4")`: a string is searched for the character,
      an array for the element `"4"`. Values without `includes` throw in
      the source and are not used with this rule here (they give `true`). */
  function Contains4(v: Value): Value {
    match v
    case Str(s) => Bool('4' !in s)
    case Arr(xs) => Bool(Str("4") !in xs)
    case _ => Bool(true)
  }

  /** The builder `init<string>().fullObjectRules({required, minLenght})`
      yields, as `StringSchemeRules` shows. */
  function StringScheme(): Builder {
    Builder([("required", Single(Required)), ("minLenght", Single(MinLength))], [])
  }

  /** `init<string>().fullObjectRules({required, minLenght})` builds the
      string scheme. */
  lemma StringSchemeRules()
    ensures FullObjectRules(Init(), [("required", Single(Required)), ("minLenght", Single(MinLength))]) == StringScheme()
  {
    var rules := [("required", Single(Required)), ("minLenght", Single(MinLength))];
    assert OrderedMaps.DistinctKeys(rules) by {
      assert rules[0].0 != rules[1].0;
    }
    OrderedMaps.MergeIntoEmpty(rules);
  }

  /** The string scheme on any string: `required` fires on the empty
      string, `minLenght` on the other strings of at most 8 characters. */
  lemma StringSchemeOnStrings(str: string)
    ensures Validate(Scheme(StringScheme()), Str(str))
         == if str == "" then Node([ErrorRecord("required", None)], [])
            else if |str| <= 8 then Node([ErrorRecord("minLenght", None)], [])
            else Nothing
  {
    var rules := [("required", Single(Required)), ("minLenght", Single(MinLength))];
    StringSchemeRules();
    OwnRulesOnly(StringScheme(), Str(str));
    assert rules[1..] == [("minLenght", Single(MinLength))];
    assert rules[1..][1..] == [];
    if str != "" {
      assert ValidateRules(Str(str), rules) == ValidateRules(Str(str), rules[1..]);
    }
  }

  /** The two rules are scanned in order and only the first failure is
      reported. */
  lemma FirstFailureScenario()
    ensures Validate(Scheme(StringScheme()), Str("")) == Node([ErrorRecord("required", None)], [])
    ensures Validate(Scheme(StringScheme()), Str("sdfsf")) == Node([ErrorRecord("minLenght", None)], [])
    ensures Validate(Scheme(StringScheme()), Str("sdfsfsfsdfsdf")) == Nothing
  {
    StringSchemeOnStrings("");
    StringSchemeOnStrings("sdfsf");
    StringSchemeOnStrings("sdfsfsfsdfsdf");
  }

  /** `allOf({minLenght, contains4})`'s members. */
  function LengthGroup(): seq<(string, Rule)> {
    [("minLenght", MinLength), ("contains4", Contains4)]
  }

  /** `init<string>().fullObjectRules({required, ...allOf({minLenght, contains4})})`. */
  function GroupScheme(): Builder {
    FullObjectRules(Init(), [("required", Single(Required))] + AllOf(LengthGroup()))
  }

  lemma GroupSchemeRules()
    ensures GroupScheme().ownRules == [("required", Single(Required))] + AllOf(LengthGroup())
    ensures GroupScheme().children == []
  {
    var rules := [("required", Single(Required))] + AllOf(LengthGroup());
    assert rules == [("required", Single(Required)), ("minLenght", GroupHead(LengthGroup())), ("contains4", Placeholder)];
    assert OrderedMaps.DistinctKeys(rules) by {
      assert rules[0].0 != rules[1].0 && rules[0].0 != rules[2].0 && rules[1].0 != rules[2].0;
    }
    OrderedMaps.MergeIntoEmpty(rules);
  }

  /** Both members of the group are always evaluated. */
  lemma LengthGroupOnStrings(str: string)
    ensures GroupErrors(Str(str), LengthGroup())
         == (if |str| <= 8 then [ErrorRecord("minLenght", None)] else [])
            + (if '4' !in str then [ErrorRecord("contains4", None)] else [])
  {
    var g: seq<(string, Rule)> := LengthGroup();
    assert g[1..] == [("contains4", Contains4)];
    assert |g[2..]| == 0;
  }

  /** The group scheme on any string: `required` alone on the empty string,
      otherwise every failing member of the group together. */
  lemma GroupSchemeOnStrings(str: string)
    ensures var group := (if |str| <= 8 then [ErrorRecord("minLenght", None)] else [])
                         + (if '4' !in str then [ErrorRecord("contains4", None)] else []);
      Validate(Scheme(GroupScheme()), Str(str))
      == if str == "" then Node([ErrorRecord("required", None)], [])
         else if group != [] then Node(group, [])
         else Nothing
  {
    var head: seq<(string, RuleEntry)> := [("required", Single(Required))];
    var rules := head + AllOf(LengthGroup());
    GroupSchemeRules();
    LengthGroupOnStrings(str);
    OwnRulesOnly(GroupScheme(), Str(str));
    if str != "" {
      assert AllPass(Str(str), head);
      AllOfIsOneScanPosition(Str(str), head, LengthGroup(), []);
      assert head + AllOf(LengthGroup()) + [] == rules;
    }
  }

  /** The repository's all-of example. */
  lemma AllOfScenario()
    ensures Validate(Scheme(GroupScheme()), Str("")) == Node([ErrorRecord("required", None)], [])
    ensures Validate(Scheme(GroupScheme()), Str("sdfsf"))
         == Node([ErrorRecord("minLenght", None), ErrorRecord("contains4", None)], [])
    ensures Validate(Scheme(GroupScheme()), Str("sdfsfsfsdfsdf")) == Node([ErrorRecord("contains4", None)], [])
    ensures Validate(Scheme(GroupScheme()), Str("sdfsfsf4sdfsdf")) == Nothing
  {
    GroupSchemeOnStrings("");
    GroupSchemeOnStrings("sdfsf");
    GroupSchemeOnStrings("sdfsfsfsdfsdf");
    GroupSchemeOnStrings("sdfsfsf4sdfsdf");
    assert "sdfsfsf4sdfsdf"[7] == '4';
  }

  /** Rules returning `0` or `""` fail and keep the payload; `null` and
      `undefined` pass. */
  lemma FalsyPayloadScenario()
    ensures Validate(Scheme(FullObjectRules(Init(), [("zeroAsValue", Single(_ => Num(0)))])), Str(""))
         == Node([ErrorRecord("zeroAsValue", Some(Num(0)))], [])
    ensures Validate(Scheme(FullObjectRules(Init(), [("emptyStringAsValue", Single(_ => Str("")))])), Str(""))
         == Node([ErrorRecord("emptyStringAsValue", Some(Str("")))], [])
    ensures Validate(Scheme(FullObjectRules(Init(), [("nullAsValue", Single(_ => Bool(false)))])), Str("")) == Nothing
    ensures Validate(Scheme(FullObjectRules(Init(), [("nullAsValue", Single(_ => Null))])), Str("")) == Nothing
    ensures Validate(Scheme(FullObjectRules(Init(), [("undefidedAsValue", Single(_ => Undefined))])), Str("")) == Nothing
  {
    SingleRuleScheme("zeroAsValue", _ => Num(0), Str(""));
    SingleRuleScheme("emptyStringAsValue", _ => Str(""), Str(""));
    SingleRuleScheme("nullAsValue", _ => Bool(false), Str(""));
    SingleRuleScheme("nullAsValue", _ => Null, Str(""));
    SingleRuleScheme("undefidedAsValue", _ => Undefined, Str(""));
  }

  /** A scheme of one rule and no children reports that rule's record, or `null`. */
  lemma SingleRuleScheme(name: string, check: Rule, d: Value)
    ensures Validate(Scheme(FullObjectRules(Init(), [(name, Single(check))])), d)
         == if Passes(check(d)) then Nothing else Node([RecordOf(name, check(d))], [])
  {
    var rules := [(name, Single(check))];
    OrderedMaps.MergeIntoEmpty(rules);
    OwnRulesOnly(FullObjectRules(Init(), rules), d);
    SingleRuleScan(name, check, d);
  }

  /** A builder with no own rules and a single child reports that child's
      result under its name, or `null`. */
  lemma OneChild(b: Builder, key: string, child: Validator, d: Value)
    requires b.ownRules == [] && b.children == [(key, child)]
    requires !Nullish(d) && Fits(child, Get(d, key))
    ensures SchemeFits(b, d)
    ensures var res := Validate(child, Get(d, key));
      ValidateScheme(b, d) == if Failed(res) then Node([], [(key, res)]) else Nothing
  {
    assert b.children[0] == (key, child);
    assert ChildResults(b, d, 1) == [];
    assert ChildResults(b, d, 0) == [(key, Validate(child, Get(d, key)))];
  }

  /** `init().rules({value: child})`. */
  lemma RulesOneChild(child: Validator)
    ensures Rules(Init(), [("value", Nested(child))]).ownRules == []
    ensures Rules(Init(), [("value", Nested(child))]).children == [("value", child)]
  {
    var specs := [("value", Nested(child))];
    assert Convert(specs) == [("value", child)];
    OrderedMaps.MergeIntoEmpty(Convert(specs));
  }

  /** `list(stringScheme).validate(["", "sdfsdf", "123123123"])`. */
  lemma ListOfStrings()
    ensures Fits(ListOf(Scheme(StringScheme())), Arr([Str(""), Str("sdfsdf"), Str("123123123")]))
    ensures Validate(ListOf(Scheme(StringScheme())), Arr([Str(""), Str("sdfsdf"), Str("123123123")]))
         == Items([Node([ErrorRecord("required", None)], []),
                   Node([ErrorRecord("minLenght", None)], []),
                   Nothing])
  {
    var item := Scheme(StringScheme());
    var xs := [Str(""), Str("sdfsdf"), Str("123123123")];
    StringSchemeRules();
    StringSchemeOnStrings("");
    StringSchemeOnStrings("sdfsdf");
    StringSchemeOnStrings("123123123");
    var rs := ListResults(item, xs);
    assert xs[1..][1..][1..] == [];
    assert rs == [Node([ErrorRecord("required", None)], []),
                  Node([ErrorRecord("minLenght", None)], []),
                  Nothing];
    assert Failed(rs[0]);
  }

  /** `init().rules({value: list(stringScheme)})`: one entry per element,
      `null` where the element passed. */
  lemma ListScenario()
    ensures var b := Rules(Init(), [("value", Nested(ListOf(Scheme(StringScheme()))))]);
      var data := Obj([("value", Arr([Str(""), Str("sdfsdf"), Str("123123123")]))]);
      && SchemeFits(b, data)
      && ValidateScheme(b, data)
         == Node([], [("value", Items([Node([ErrorRecord("required", None)], []),
                                       Node([ErrorRecord("minLenght", None)], []),
                                       Nothing]))])
  {
    var item := Scheme(StringScheme());
    var b := Rules(Init(), [("value", Nested(ListOf(item)))]);
    var xs := [Str(""), Str("sdfsdf"), Str("123123123")];
    var data := Obj([("value", Arr(xs))]);
    RulesOneChild(ListOf(item));
    assert Get(data, "value") == Arr(xs);
    ListOfStrings();
    OneChild(b, "value", ListOf(item), data);
  }

  /** `map(item)` over a three-field object, spelled out field by field. */
  lemma MapOfThree(item: Validator, fields: seq<(string, Value)>)
    requires |fields| == 3
    requires forall i :: 0 <= i < 3 ==> Fits(item, fields[i].1)
    ensures Fits(MapOf(item), Obj(fields))
    ensures var failing := KeepFailed([(fields[0].0, Validate(item, fields[0].1)),
                                       (fields[1].0, Validate(item, fields[1].1)),
                                       (fields[2].0, Validate(item, fields[2].1))]);
      Validate(MapOf(item), Obj(fields)) == if failing != [] then Keyed(failing) else Nothing
  {
    assert OwnEntries(Obj(fields)) == fields;
    var rs := MapResults(item, fields);
    MapResultsAt(item, fields, 0);
    MapResultsAt(item, fields, 1);
    MapResultsAt(item, fields, 2);
    assert rs == [rs[0], rs[1], rs[2]];
  }

  /** What the string scheme reports for one string. */
  function StringSchemeResult(str: string): Report {
    if str == "" then Node([ErrorRecord("required", None)], [])
    else if |str| <= 8 then Node([ErrorRecord("minLenght", None)], [])
    else Nothing
  }

  /** `map(stringScheme)` over three string fields. */
  lemma MapOfThreeStrings(k0: string, s0: string, k1: string, s1: string, k2: string, s2: string)
    ensures Fits(MapOf(Scheme(StringScheme())), Obj([(k0, Str(s0)), (k1, Str(s1)), (k2, Str(s2))]))
    ensures var failing := KeepFailed([(k0, StringSchemeResult(s0)), (k1, StringSchemeResult(s1)), (k2, StringSchemeResult(s2))]);
      Validate(MapOf(Scheme(StringScheme())), Obj([(k0, Str(s0)), (k1, Str(s1)), (k2, Str(s2))]))
      == if failing != [] then Keyed(failing) else Nothing
  {
    var item := Scheme(StringScheme());
    StringSchemeRules();
    StringSchemeOnStrings(s0);
    StringSchemeOnStrings(s1);
    StringSchemeOnStrings(s2);
    MapOfThree(item, [(k0, Str(s0)), (k1, Str(s1)), (k2, Str(s2))]);
  }

  /** `map(stringScheme).validate({v1: "", v2: "sdfsdf", v3: "123123123"})`. */
  lemma MapOfStrings()
    ensures Fits(MapOf(Scheme(StringScheme())), Obj([("v1", Str("")), ("v2", Str("sdfsdf")), ("v3", Str("123123123"))]))
    ensures Validate(MapOf(Scheme(StringScheme())), Obj([("v1", Str("")), ("v2", Str("sdfsdf")), ("v3", Str("123123123"))]))
         == Keyed([("v1", Node([ErrorRecord("required", None)], [])),
                   ("v2", Node([ErrorRecord("minLenght", None)], []))])
  {
    MapOfThreeStrings("v1", "", "v2", "sdfsdf", "v3", "123123123");
    var r0 := Node([ErrorRecord("required", None)], []);
    var r1 := Node([ErrorRecord("minLenght", None)], []);
    assert StringSchemeResult("") == r0;
    assert StringSchemeResult("sdfsdf") == r1;
    assert StringSchemeResult("123123123") == Nothing;
    var rs: seq<(string, Report)> := [("v1", r0), ("v2", r1), ("v3", Nothing)];
    assert KeepFailed(rs) == [("v1", r0), ("v2", r1)] by {
      assert KeepFailed(rs[1..][1..]) == [];
      assert KeepFailed(rs[1..]) == [rs[1]];
    }
  }

  /** `init().rules({value: map(stringScheme)})`: only the failing keys. */
  lemma MapScenario()
    ensures var b := Rules(Init(), [("value", Nested(MapOf(Scheme(StringScheme()))))]);
      var data := Obj([("value", Obj([("v1", Str("")), ("v2", Str("sdfsdf")), ("v3", Str("123123123"))]))]);
      && SchemeFits(b, data)
      && ValidateScheme(b, data)
         == Node([], [("value", Keyed([("v1", Node([ErrorRecord("required", None)], [])),
                                       ("v2", Node([ErrorRecord("minLenght", None)], []))]))])
  {
    var item := Scheme(StringScheme());
    var b := Rules(Init(), [("value", Nested(MapOf(item)))]);
    var fields := [("v1", Str("")), ("v2", Str("sdfsdf")), ("v3", Str("123123123"))];
    var data := Obj([("value", Obj(fields))]);
    RulesOneChild(MapOf(item));
    assert Get(data, "value") == Obj(fields);
    MapOfStrings();
    OneChild(b, "value", MapOf(item), data);
  }

  /** A single rule, alone in its map, fails exactly when its result does
      not pass, with that result's record. */
  lemma SingleRuleScan(name: string, check: Rule, d: Value)
    ensures ValidateRules(d, [(name, Single(check))])
         == if Passes(check(d)) then None else Some([RecordOf(name, check(d))])
  {
    assert [(name, Single(check))][1..] == [];
  }

  /** `allOf` of a single rule behaves like that rule alone. */
  lemma SingleGroupScan(name: string, check: Rule, d: Value)
    ensures ValidateRules(d, AllOf([(name, check)]))
         == if Passes(check(d)) then None else Some([RecordOf(name, check(d))])
  {
    var members: seq<(string, Rule)> := [(name, check)];
    var rules := AllOf(members);
    assert rules == [(name, GroupHead(members))];
    assert rules[1..] == [];
    assert members[1..] == [];
    var own: seq<ErrorRecord> := if Passes(check(d)) then [] else [RecordOf(name, check(d))];
    assert GroupErrors(d, members) == own + GroupErrors(d, []);
    assert own + [] == own;
    assert ValidateRules(d, rules[1..]) == None;
  }

  /** `init().rules({key: rules}).validate({key: x})`: the promoted rule map
      runs on `x`, and its errors, if any, are reported under `key`. */
  lemma FieldRuleSet(key: string, rules: seq<(string, RuleEntry)>, x: Value)
    requires OrderedMaps.DistinctKeys(rules)
    ensures var b := Rules(Init(), [(key, RuleSet(rules))]);
      && SchemeFits(b, Obj([(key, x)]))
      && ValidateScheme(b, Obj([(key, x)]))
         == match ValidateRules(x, rules)
            case None => Nothing
            case Some(errors) => Node([], [(key, Node(errors, []))])
  {
    var specs := [(key, RuleSet(rules))];
    var child := Promote(RuleSet(rules));
    var b := Rules(Init(), specs);
    var data := Obj([(key, x)]);
    assert Convert(specs) == [(key, child)];
    OrderedMaps.MergeIntoEmpty(Convert(specs));
    assert OrderedMaps.Lookup([(key, x)], key) == Some(x);
    assert Get(data, key) == x;
    PromotedRuleSet(rules, x);
    OneChild(b, key, child, data);
  }

  /** `init().rules({f: {name: () => payload}}).validate({f: ""})`: the
      documented falsy payloads `0` and `""` are reported under `f` with the
      payload kept, while `null` and `undefined` leave the result `null`. */
  lemma FieldPayloadScenario(name: string, payload: Value)
    ensures var b := Rules(Init(), [("f", RuleSet([(name, Single(_ => payload))]))]);
      var data := Obj([("f", Str(""))]);
      && SchemeFits(b, data)
      && (payload == Num(0) || payload == Str("") ==>
            ValidateScheme(b, data) == Node([], [("f", Node([ErrorRecord(name, Some(payload))], []))]))
      && (payload == Null || payload == Undefined ==> ValidateScheme(b, data) == Nothing)
  {
    var rules := [(name, Single(_ => payload))];
    FieldRuleSet("f", rules, Str(""));
    SingleRuleScan(name, _ => payload, Str(""));
  }

  /** The same with the rule wrapped in `allOf`:
      `init().rules({f: allOf({name: () => payload})}).validate({f: ""})`. */
  lemma GroupPayloadScenario(name: string, payload: Value)
    ensures var b := Rules(Init(), [("f", RuleSet(AllOf([(name, _ => payload)])))]);
      var data := Obj([("f", Str(""))]);
      && SchemeFits(b, data)
      && (payload == Num(0) || payload == Str("") ==>
            ValidateScheme(b, data) == Node([], [("f", Node([ErrorRecord(name, Some(payload))], []))]))
      && (payload == Null || payload == Undefined ==> ValidateScheme(b, data) == Nothing)
  {
    var members: seq<(string, Rule)> := [(name, _ => payload)];
    assert AllOf(members) == [(name, GroupHead(members))];
    FieldRuleSet("f", AllOf(members), Str(""));
    SingleGroupScan(name, _ => payload, Str(""));
  }

  /** The passing half of the list example:
      `["qweasdzxc", "321311231", "123123123"]` gives `null`. */
  lemma ListScenarioAllPass()
    ensures var b := Rules(Init(), [("value", Nested(ListOf(Scheme(StringScheme()))))]);
      var data := Obj([("value", Arr([Str("qweasdzxc"), Str("321311231"), Str("123123123")]))]);
      && SchemeFits(b, data)
      && ValidateScheme(b, data) == Nothing
  {
    var item := Scheme(StringScheme());
    var b := Rules(Init(), [("value", Nested(ListOf(item)))]);
    var xs := [Str("qweasdzxc"), Str("321311231"), Str("123123123")];
    var data := Obj([("value", Arr(xs))]);
    StringSchemeRules();
    StringSchemeOnStrings("qweasdzxc");
    StringSchemeOnStrings("321311231");
    StringSchemeOnStrings("123123123");
    assert forall i :: 0 <= i < |xs| ==> Validate(item, xs[i]) == Nothing;
    ListPositional(item, xs);
    RulesOneChild(ListOf(item));
    assert Get(data, "value") == Arr(xs);
    OneChild(b, "value", ListOf(item), data);
  }

  /** `map(stringScheme).validate({v1: "qweasdzxc", v2: "321311231", v3: "123123123"})`. */
  lemma MapOfLongStrings()
    ensures Fits(MapOf(Scheme(StringScheme())), Obj([("v1", Str("qweasdzxc")), ("v2", Str("321311231")), ("v3", Str("123123123"))]))
    ensures Validate(MapOf(Scheme(StringScheme())), Obj([("v1", Str("qweasdzxc")), ("v2", Str("321311231")), ("v3", Str("123123123"))]))
         == Nothing
  {
    MapOfThreeStrings("v1", "qweasdzxc", "v2", "321311231", "v3", "123123123");
    var rs: seq<(string, Report)> := [("v1", StringSchemeResult("qweasdzxc")), ("v2", StringSchemeResult("321311231")), ("v3", StringSchemeResult("123123123"))];
    assert KeepFailed(rs[1..][1..]) == [];
  }

  /** The passing half of the map example: all-long values give `null`. */
  lemma MapScenarioAllPass()
    ensures var b := Rules(Init(), [("value", Nested(MapOf(Scheme(StringScheme()))))]);
      var data := Obj([("value", Obj([("v1", Str("qweasdzxc")), ("v2", Str("321311231")), ("v3", Str("123123123"))]))]);
      && SchemeFits(b, data)
      && ValidateScheme(b, data) == Nothing
  {
    var item := Scheme(StringScheme());
    var b := Rules(Init(), [("value", Nested(MapOf(item)))]);
    var fields := [("v1", Str("qweasdzxc")), ("v2", Str("321311231")), ("v3", Str("123123123"))];
    var data := Obj([("value", Obj(fields))]);
    RulesOneChild(MapOf(item));
    assert Get(data, "value") == Obj(fields);
    MapOfLongStrings();
    OneChild(b, "value", MapOf(item), data);
  }
}

=== FILE: values.dfy ===
/** The JavaScript values a validator sees: the data being validated, what a
    rule returns, and the payload stored in an error record. Numbers are
    integers here. */
module Values {
  import OrderedMaps

  datatype Value =
    | Undefined
    | Null
    | Bool(b: bool)
    | Num(n: int)
    | Str(s: string)
    | Arr(items: seq<Value>)
    | Obj(fields: seq<(string, Value)>)

  /** JavaScript truthiness, as read by `if (res)`. */
  predicate Truthy(v: Value) {
    match v
    case Undefined => false
    case Null => false
    case Bool(b) => b
    case Num(n) => n != 0
    case Str(s) => s != ""
    case Arr(_) => true
    case Obj(_) => true
  }

  /** The pass test applied to a rule's return value:
      `res === false || res == null`. */
  predicate Passes(v: Value) {
    v == Bool(false) || v == Null || v == Undefined
  }

  /** `null` or `undefined`: reading a property of these throws. */
  predicate Nullish(v: Value) {
    v.Null? || v.Undefined?
  }

  /** The decimal digit for `0 <= d < 10`. */
  function Digit(d: nat): char
    requires d < 10
  {
    (48 + d) as char
  }

  /** `String(n)` for an array index: its decimal digits, no leading zero. */
  function IndexKey(n: nat): (k: string)
    ensures |k| >= 1
    ensures n >= 10 ==> |k| >= 2
    ensures k[|k| - 1] == Digit(n % 10)
    decreases n
  {
    if n < 10 then [Digit(n)] else IndexKey(n / 10) + [Digit(n % 10)]
  }

  /** `k` is the key of one of the indices `0 .. n - 1`. */
  predicate IndexKeyBelow(k: string, n: nat) {
    exists i: nat :: i < n && k == IndexKey(i)
  }

  /** Distinct indices have distinct keys. */
  lemma {:induction false} IndexKeyInjective(a: nat, b: nat)
    requires IndexKey(a) == IndexKey(b)
    ensures a == b
    decreases a
  {
    if a >= 10 && b >= 10 {
      var ka, kb := IndexKey(a), IndexKey(b);
      assert ka[..|ka| - 1] == IndexKey(a / 10);
      assert kb[..|kb| - 1] == IndexKey(b / 10);
      IndexKeyInjective(a / 10, b / 10);
    }
  }

  /** `Object.keys(d)` paired with `d[key]`: an object's own fields, an
      array's indices with its elements, a string's indices with its
      characters; other primitives have no own keys. */
  function OwnEntries(d: Value): (es: seq<(string, Value)>)
    ensures d.Obj? ==> es == d.fields
    ensures d.Arr? ==> |es| == |d.items|
    ensures d.Str? ==> |es| == |d.s|
    ensures !d.Obj? && !d.Arr? && !d.Str? ==> es == []
  {
    match d
    case Obj(fields) => fields
    case Arr(items) => seq(|items|, i requires 0 <= i < |items| => (IndexKey(i), items[i]))
    case Str(s) => seq(|s|, i requires 0 <= i < |s| => (IndexKey(i), Str([s[i]])))
    case _ => []
  }

  /** The `i`-th own key of an array or a string is the index `i`, with
      the element or the character there. */
  lemma OwnEntriesAt(d: Value, i: nat)
    requires d.Arr? || d.Str?
    requires i < |OwnEntries(d)|
    ensures d.Arr? ==> OwnEntries(d)[i] == (IndexKey(i), d.items[i])
    ensures d.Str? ==> OwnEntries(d)[i] == (IndexKey(i), Str([d.s[i]]))
  {
  }

  /** Own keys are distinct: index keys by `IndexKey`'s injectivity, an
      object's by assumption about the object. */
  lemma OwnEntriesDistinct(d: Value)
    requires d.Obj? ==> OrderedMaps.DistinctKeys(d.fields)
    ensures OrderedMaps.DistinctKeys(OwnEntries(d))
  {
    var es := OwnEntries(d);
    if d.Arr? || d.Str? {
      forall i, j | 0 <= i < j < |es|
        ensures es[i].0 != es[j].0
      {
        OwnEntriesAt(d, i);
        OwnEntriesAt(d, j);
        if es[i].0 == es[j].0 {
          IndexKeyInjective(i, j);
        }
      }
    }
  }

  /** `Object.keys` of an array lists its indices in order, each once, with
      the elements there, and no other key. */
  lemma ArrayEntries(xs: seq<Value>)
    ensures forall i :: 0 <= i < |xs| ==> OwnEntries(Arr(xs))[i] == (IndexKey(i), xs[i])
    ensures OrderedMaps.DistinctKeys(OwnEntries(Arr(xs)))
    ensures forall k :: k in OrderedMaps.Keys(OwnEntries(Arr(xs))) ==> IndexKeyBelow(k, |xs|)
  {
    var es := OwnEntries(Arr(xs));
    forall i | 0 <= i < |xs|
      ensures es[i] == (IndexKey(i), xs[i])
    {
      OwnEntriesAt(Arr(xs), i);
    }
    OwnEntriesDistinct(Arr(xs));
    forall k | k in OrderedMaps.Keys(es)
      ensures IndexKeyBelow(k, |xs|)
    {
      var i: nat :| i < |es| && OrderedMaps.Keys(es)[i] == k;
      assert k == IndexKey(i);
    }
  }

  /** `data[key]` for a value that is not nullish. */
  function Get(d: Value, key: string): Value {
    OrderedMaps.Lookup(OwnEntries(d), key).GetOr(Undefined)
  }

  /** `data[key]` is the value stored under an own key, and `undefined`
      for any other key. */
  lemma GetOwn(d: Value, key: string)
    ensures key in OrderedMaps.Keys(OwnEntries(d)) ==> Get(d, key) == OrderedMaps.Lookup(OwnEntries(d), key).value
    ensures key !in OrderedMaps.Keys(OwnEntries(d)) ==> Get(d, key) == Undefined
  {
  }

  /** `xs[i]` and `s[i]`: reading an index key of an array gives the
      element there and of a string the one-character string there. */
  lemma GetIndex(d: Value, i: nat)
    requires (d.Arr? && i < |d.items|) || (d.Str? && i < |d.s|)
    ensures d.Arr? ==> Get(d, IndexKey(i)) == d.items[i]
    ensures d.Str? ==> Get(d, IndexKey(i)) == Str([d.s[i]])
  {
    OwnEntriesAt(d, i);
    OwnEntriesDistinct(d);
    OrderedMaps.LookupAt(OwnEntries(d), i);
  }

  /** On an array or a string, any key that is not an index below the
      length (`"length"` among them) reads `undefined`. */
  lemma GetNonIndex(d: Value, key: string)
    requires d.Arr? || d.Str?
    ensures d.Arr? && !IndexKeyBelow(key, |d.items|) ==> Get(d, key) == Undefined
    ensures d.Str? && !IndexKeyBelow(key, |d.s|) ==> Get(d, key) == Undefined
  {
    var es := OwnEntries(d);
    if key in OrderedMaps.Keys(es) {
      var j: nat :| j < |es| && OrderedMaps.Keys(es)[j] == key;
      OwnEntriesAt(d, j);
      assert key == IndexKey(j);
    }
  }

  /** `obj[name]` on an object with distinct field names: the value of the
      field so named. */
  lemma GetField(fields: seq<(string, Value)>, i: nat)
    requires OrderedMaps.DistinctKeys(fields)
    requires i < |fields|
    ensures Get(Obj(fields), fields[i].0) == fields[i].1
  {
    OrderedMaps.LookupAt(fields, i);
  }

  /** The two tests differ exactly on `0` and `""`: every passing value is
      falsy, and the falsy values that do not pass are the zero number and
      the empty string. */
  lemma PassesVersusFalsy(v: Value)
    ensures Passes(v) ==> !Truthy(v)
    ensures !Truthy(v) && !Passes(v) <==> v == Num(0) || v == Str("")
  {
  }
}
